=== FILE: README.md ===
# Resume screener matching core in Dafny

This project models the matching core of a resume screener, the part that decides how well a
resume fits a job description:

- `resume_parser.py`:
  - the skill table `skill_map`: 15 canonical skills, each with the literal variants that reveal it;
  - `preprocess_text`: lower-case the text and collapse each whitespace run to one space;
  - `extract_skills`: pad the lowered text with one space on each side and collect every canonical
    skill that has a variant occurring in it as a substring.
- `similarity.py`:
  - `extract_years`: the largest number `N` written as `N years`, `N+ years`, `N yrs` and so on,
    or 0 when there is none;
  - the skill score: the rounded share of required skills the resume has, plus the matched and
    missing sets;
  - the experience score: full credit, or linear partial credit rounded to hundredths;
  - the explanation rules: rejection reasons and one of three hiring bands;
  - `compute_match_percentage`: weights skills 0.7 and experience 0.3 and rounds the result.

Modules, one per concern:

- `Text` (`text.dfy`): ASCII character classes, `str.lower()`, and substring search with its
  declarative specification.
- `Rounding` (`rounding.dfy`): `round(x, 2)` on exact reals. It rounds to the nearest hundredth
  and sends ties to the even neighbour.
- `ResumeParser` (`resume_parser.dfy`): the skill table, `preprocess_text` and `extract_skills`.
  - `extract_skills` is modelled twice. One model is the table scan with its inner loop that stops
    at the first variant that hits. The other is a membership characterisation proved equal to it.
- `Similarity` (`similarity.py`'s five functions):
  - The years pattern `(\d+)\+?\s*years` is modelled twice, like `extract_skills`. `Capture` is the
    declarative language of the pattern. `TryMatch` is the engine's greedy attempt at one position
    and `FindAll` is `re.findall`. The two are proved to agree.
  - The score functions are stated on skill sets and year counts (`ScoreSkills`,
    `ExperienceCredit`, `CombineScores`), then lifted to texts.
- `SkillExamples`, `YearsExamples`, `Scenarios`: concrete consequences and end-to-end scenarios.

Scores are exact reals, so the rounding is the only approximation in the model.

Behaviours of the code worth knowing, each proved:

- `extract_years("0 years")` is 0 although the text matches the pattern, so a result of 0 does not
  mean that no number was mentioned (`YearsExamples.ZeroYearsIsAMention`).
- Partial experience credit is below 100 before rounding, but `round(score, 2)` can bring it to 100:
  99999 years against 100000 required (`Similarity.PartialCreditCanRoundToFull`).
- The hiring band is chosen from the weighted score before rounding. Full skill marks with 1 year
  against 3 required weigh 79.999, reported as 80.0 in the moderate band
  (`Scenarios.RoundedEightyStaysModerate`).
- A reported final score of 100 needs full skill marks but not full experience marks
  (`Similarity.NearlyFullExperienceRoundsToFull`).

## Model

| member | source | states |
|---|---|---|
| Text.LowerIdempotent | resume_parser.py:52 | after `lower()` no ASCII upper-case letter is left, and lowering again changes nothing |
| Text.ContainsFromSpec | resume_parser.py:65 | the scan over start positions finds `v` exactly when `v` occurs as a contiguous block of the text |
| ResumeParser.Collapse | resume_parser.py:53 | `re.sub(r'\s+', ' ', s)` leaves only `' '` as whitespace, never two spaces in a row, never adds characters, and adds no upper case |
| ResumeParser.PreprocessText | resume_parser.py:51-54 | the result is normalised (no upper case, `' '` the only whitespace, no double space), no longer than the input, and empty exactly when the input is |
| ResumeParser.PreprocessIdempotent | resume_parser.py:51-54 | normalising twice equals normalising once |
| ResumeParser.PreprocessWord | resume_parser.py:52-53 | a text without whitespace is only lowered |
| ResumeParser.PreprocessRun | resume_parser.py:53 | a non-empty whitespace run becomes exactly one space |
| ResumeParser.PreprocessSplit | resume_parser.py:52-53 | normalising distributes over concatenation at any cut that does not split a whitespace run |
| ResumeParser.PreprocessKeepsEdges | resume_parser.py:52-53 | no trimming: a leading or trailing whitespace run stays as one space, and a leading or trailing non-space character is kept, lowered |
| ResumeParser.PreprocessKeepsContent | resume_parser.py:52-53 | the non-whitespace characters survive in order, lowered |
| ResumeParser.AnyVariantFromSpec | resume_parser.py:64-67 | the inner loop, which stops at the first hit, reports a hit exactly when some remaining variant occurs in the text |
| ResumeParser.ScanFromSpec | resume_parser.py:63-67 | the outer loop collects exactly the names of the entries with a variant that occurs in the text |
| ResumeParser.ScanFromSize | resume_parser.py:61-69 | the loop adds at most one name per table entry |
| ResumeParser.ExtractSkillsWith | resume_parser.py:60-69 | for any table: a name is found exactly when some entry with that name has a variant occurring in the padded, lowered text, and at most one name is found per entry |
| ResumeParser.ExtractSkills | resume_parser.py:58-69 | skill `c` is found exactly when a variant of `c` occurs in `" " + lower(text) + " "`; results are canonical names only, at most 15 of them |
| ResumeParser.ExtractSkillsOrderFree | resume_parser.py:63-67 | the result does not depend on the order of the table's entries |
| ResumeParser.ExtractSkillsIgnoresCase | resume_parser.py:60 | extracting from the lowered text gives the same skills |
| SkillExamples.FoundNone | resume_parser.py:63-69 | when no entry has a variant in the padded text, nothing is found |
| SkillExamples.FoundOnly | resume_parser.py:63-69 | when exactly one entry has a variant in the padded text, exactly its name is found |
| SkillExamples.EmptyTextHasNoSkills | resume_parser.py:60-69 | the empty text yields no skill |
| SkillExamples.HtmlYieldsMachineLearning | resume_parser.py:10-10 | raw substring matching: "html" yields exactly "machine learning", through variant "ml" |
| SkillExamples.BareRYieldsR | resume_parser.py:9-9 | thanks to the padding, the bare text "r" yields skill "r" through variant " r " |
| SkillExamples.ReactYieldsOnlyReact | resume_parser.py:9-9 | the boundary characters of r's variants keep "react" from yielding "r"; it yields only "react" |
| SkillExamples.UpperCaseReact | resume_parser.py:60 | "REACT" yields "react", as "react" does |
| Similarity.ValueSuffix | similarity.py:15 | dropping leading digits never increases the number `int()` reads |
| Similarity.TryMatch | similarity.py:9-13 | a match attempt at `i` reports a non-empty digit group starting at `i` and an end with no digit after the group |
| Similarity.TryMatchExact | similarity.py:9-13 | the greedy attempt at `i` succeeds, with group end `q`, exactly when the pattern `(\d+)\+?\s*unit` matches at `i` with digit group `t[i..q]`; backtracking finds nothing else |
| Similarity.FindAll | similarity.py:12-15 | `re.findall` for one pattern: every number it reports is the value of a match of the pattern, and every match, even one starting inside a digit run, has a value no larger than some reported number |
| Similarity.SkipNoDigits | similarity.py:13 | a stretch without digits contributes no match |
| Similarity.MaxOrZero | similarity.py:17 | `max(years) if years else 0`: an upper bound of the list that belongs to it, or 0 for the empty list |
| Similarity.YearsFoundNonEmpty | similarity.py:9-15 | the list of numbers collected from both patterns is empty exactly when the text has no mention of either pattern |
| Similarity.ExtractYears | similarity.py:6-17 | the result is at least every number mentioned before `years` or `yrs` in the lowered text; when there is a mention, the result is itself a mentioned number; with no mention it is 0 |
| Similarity.NoDigitsNoYears | similarity.py:6-17 | a text without digits gives 0 |
| Similarity.ExtractYearsIgnoresCase | similarity.py:8 | lowering the text first changes nothing |
| YearsExamples.ZeroYearsIsAMention | similarity.py:6-17 | "0 years" is a mention and gives 0, so 0 does not imply the absence of a mention |
| YearsExamples.PlusAbbreviationUpperCase | similarity.py:8-9 | "5+ YRS" gives 5: case, the optional '+' and the abbreviation are all accepted |
| Similarity.SkillsOf | similarity.py:23-27 | the skills of a normalised text are canonical names, at most one per table entry |
| Similarity.PercentBounds | similarity.py:35 | a share `part/whole` with `part <= whole` lies in [0, 100] and is 100 exactly when `part == whole` |
| Similarity.PartialPercentRounding | similarity.py:35-37 | with at most 15 required skills, a partial match rounds to neither 0 nor 100 |
| Similarity.ScoreSkills | similarity.py:29-37 | no required skill gives the fail-safe (0, {}, {}); otherwise matched and missing are disjoint, their union is the required set, matched lies within the resume skills and missing outside them; the score is the rounded percentage in [0, 100], 100 exactly when nothing is missing and 0 exactly when nothing matched |
| Similarity.SkillScoreRounding | similarity.py:35-37 | the rounded skill percentage is 100 exactly when nothing is missing, 0 exactly when nothing matched, and lies in [0, 100] |
| Similarity.SkillMatchScore | similarity.py:21-37 | a job description without recognised skills gives (0, {}, {}) whatever the resume; otherwise matched and missing split the job's skills, matched within the resume's and missing outside them; the score is the rounded percentage of matched job skills, a whole number of hundredths in [0, 100], 100 exactly when nothing is missing and 0 exactly when nothing matched |
| Similarity.SkillMatchBySkills | similarity.py:23-27 | the skill result depends on the two texts only through their skill sets |
| Similarity.ExperienceCredit | similarity.py:46-53 | the credit is in [0, 100] and a whole number of hundredths; it is 100 when no years are required or the requirement is met; below 100 only when the resume has fewer years |
| Similarity.PartialCredit | similarity.py:52-53 | with fewer years than required, the credit is the rounded share of years, and the share itself is below 100 |
| Similarity.ExperienceCreditMonotone | similarity.py:46-53 | more resume years never lower the credit |
| Similarity.PartialCreditCanRoundToFull | similarity.py:52-53 | 99999 years against 100000 required rounds to full credit 100 |
| Similarity.ExperienceMatchScore | similarity.py:41-53 | the years reported are those extracted from each text; the score has the bounds, the full-credit cases and the partial-credit formula of the credit |
| Similarity.Reasons | similarity.py:59-69 | at most three reasons, in the fixed order missing skills, low skill match, insufficient experience; the missing-skills reason appears exactly when skills are missing and names exactly them; low skill match exactly when skill < 60; insufficient experience exactly when experience < 60 |
| Similarity.Justification | similarity.py:71-77 | the strong pair exactly when final >= 80, "Moderate profile match" exactly when 60 <= final < 80, the rejection line exactly when final < 60 |
| Similarity.GenerateExplanation | similarity.py:57-79 | reasons in the fixed order missing skills, low skill match, insufficient experience; the missing-skills reason exactly when skills are missing, naming exactly them; low skill match exactly when skill < 60; insufficient experience exactly when experience < 60; the strong pair exactly when final >= 80, moderate exactly when 60 <= final < 80, rejection exactly when final < 60 |
| Similarity.BandsExclusive | similarity.py:71-77 | exactly one of the three bands is chosen |
| Similarity.NoReasonsIff | similarity.py:62-69 | no rejection reason exactly when nothing is missing and both scores are at least 60 |
| Similarity.ReasonText | similarity.py:62-69 | the message for each reason: "Low skill match" and "Insufficient experience" exactly for those reasons, and for missing skills the prefix "Missing required skills: " followed by the names joined with ", ", where the names are any enumeration of the reason's skill set, each skill once |
| Similarity.ReasonTextDistinct | similarity.py:62-69 | reasons of different kinds never produce the same message |
| Scenarios.MissingTwoSkillsMessage | similarity.py:62-63 | with sql and python missing, the message is "Missing required skills: sql, python" or "Missing required skills: python, sql", whichever order the set yields |
| Similarity.WeightedBounds | similarity.py:88 | the 0.7/0.3 weighting of scores in [0, 100] is in [0, 100], and 100 exactly when both scores are 100 |
| Similarity.CombineScores | similarity.py:85-104 | the components pass through unchanged; the final score is `round(·, 2)` of the 0.7/0.3 weighting, taken half-even on the exact value, so it is in [0, 100], a whole number of hundredths, and within 0.005 of the weighted score; reasons and band come from the weighted score before rounding |
| Similarity.CombineScoresMonotone | similarity.py:88-95 | a better skill or experience score never lowers the reported final score |
| Similarity.CombineScoresFull | similarity.py:88-95 | full marks on both components give 100, and a reported 100 needs full skill marks |
| Similarity.NearlyFullExperienceRoundsToFull | similarity.py:88-95 | full skill marks with experience credit 99.99 (9999 of 10000 years) are reported as 100 |
| Similarity.ComputeMatchPercentage | similarity.py:83-104 | the result holds the skill and experience results of the two texts unchanged, the final score `round(·, 2)` (half-even on the exact value) of the 0.7/0.3 weighting of those two scores and in [0, 100], and the explanation of the unrounded weighting |
| Rounding.RoundCents | similarity.py:37 | `round(x, 2)` gives a whole number of hundredths within 0.005 of `x`; on a tie, exactly 0.005 from both neighbours, it takes the even one; it keeps an `x` that already is one and keeps the bounds 0 and 100 |
| Rounding.RoundCentsMonotone | similarity.py:95 | rounding never reverses the order of two scores |
| Scenarios.EmptyTextHasNoYears | similarity.py:17 | the empty text gives 0 years |
| Scenarios.EmptyTextSkills | similarity.py:23-27 | the empty text has no skills after normalisation |
| Scenarios.StrongBandHasSkills | similarity.py:65-77 | a strong band never comes with the low-skill-match reason |
| Scenarios.CombineWithoutSkills | similarity.py:85-95 | with skill score 0 the final score is 30 percent of the experience score, at most 30, with low skill match and the rejection band |
| Scenarios.NoJobSkills | similarity.py:29-30 | a job description without recognised skills gives skill score 0, empty matched and missing, a final score of at most 30, low skill match, no missing-skills reason of any kind and the rejection band |
| Scenarios.NothingMatched | similarity.py:32-35 | without resume skills every required skill is missing and the score is 0 |
| Scenarios.EmptyResume | similarity.py:83-104 | an empty resume against a job with skills: everything is missing, skill score 0, 0 years, both skill reasons, rejection band |
| Scenarios.HalfSkills | similarity.py:29-37 | one of two required skills present gives (50, {have}, {lack}) |
| Scenarios.CombineHalfSkillsFullCredit | similarity.py:85-95 | skill 50 and experience 100 give 65, reasons [missing {lack}, low skill match] and the moderate band |
| Scenarios.HalfSkillsEnoughYears | similarity.py:83-104 | one of two required skills and 6 years against 5: skill 50, experience 100, final 65, the missing-skill reason and low skill match, moderate band |
| Scenarios.CombineFullSkillsThirdOfYears | similarity.py:85-95 | all skills and a third of the years: experience 33.33, weighted 79.999, reported as 80.0, moderate band |
| Scenarios.RoundedEightyStaysModerate | similarity.py:83-104 | the same on texts: every required skill present, 1 year against 3, final 80.0 but moderate band |
| Scenarios.BoundaryWeightIsModerate | similarity.py:71-77 | 11 of 14 skills score 78.57, 1 of 6 years scores 16.67, their exact weighting is 60.0, and that weighting gets the moderate justification |
| Scenarios.TieRoundsToEven | similarity.py:88-95 | 247 of 2000 years score 12.35; with skill score 10 the exact weighting is 10.705, which rounds to 10.70 |

## Left out

- `extract_text` (PDF, DOCX and TXT reading) and the web front end `app.py` are I/O. They are not part of this model.
- Binary floating point: scores are exact reals, and `round(x, 2)` is round-half-even on the exact value (`Rounding.RoundCents`). The band choices at 80 and 60 are made on the exact weighting, and at a boundary they can differ from the source's float comparison. With 11 of 14 skills (78.57) and 1 of 6 years (16.67), the exact weighting is 60.0, so the model picks the moderate band (`Scenarios.BoundaryWeightIsModerate`). In IEEE doubles the same sum is 59.99999999999999, so the source writes "Profile does not meet requirements" while reporting a final score of 60.0. 6 of 7 skills with 1 of 10000 years behaves the same way. Rounding ties differ too: with skill score 10 and 247 of 2000 years (12.35), the exact weighting 10.705 rounds to 10.70 (`Scenarios.TieRoundsToEven`), but the double product `12.35 * 0.3` is 3.7049999999999996 and the float sum rounds to 10.71.
- Text.Lower: only ASCII letters are lowered, and `\s` and `\d` are their ASCII members. Python's Unicode case mapping and Unicode digits and spaces are not modelled.
- The order of the `matched` and `missing` lists comes from Python's set iteration. They are modelled as sets. The message for the missing skills (`Similarity.ReasonText`) therefore takes the names as a parameter: any enumeration of the missing set, each skill once. The model does not fix which enumeration.
- The integer 0 and 100 the source returns alongside rounded floats are modelled as the reals 0.0 and 100.0.
- Similarity.ExtractYears: "no mention gives 0" is stated one way only, because the text "0 years" mentions 0 (`YearsExamples.ZeroYearsIsAMention`).
- Similarity.ExperienceCredit: the partial credit is below 100 only before rounding (`Similarity.PartialCredit`), because rounding can reach 100 (`Similarity.PartialCreditCanRoundToFull`).
- Scenarios.HalfSkillsEnoughYears: the case of a job asking for python, sql and 5 years, against a resume with python and 6 years, is stated over any two texts with those skill sets and year counts, not on particular sentences. Evaluating the whole skill table and the years scanner on long literal texts is beyond what the verifier does in reasonable time. The facts about literal texts it relies on are shown on short texts in `SkillExamples` and `YearsExamples`.
- Similarity.Value: reads a digit group of any length. CPython 3.11 and later (also 3.10.7 and 3.9.14) refuse by default to convert a string of more than 4300 digits (`sys.int_max_str_digits`). So on a text like 5000 ones followed by " years", `int(m)` at similarity.py:15 raises ValueError, and `extract_years`, `experience_match_score` and `compute_match_percentage` raise with it. The model returns the number instead.

=== FILE: resume_parser.dfy ===
/**
 Text normalisation and skill extraction of the resume screener
 (resume_parser.py). The skill dictionary is a constant ordered table of
 canonical skill names, each with the literal variants that reveal it.
 */
module ResumeParser {
  import opened Text

  /** A canonical skill name and the literal variants that reveal it. */
  type SkillEntry = (string, seq<string>)

  const SkillMap: seq<SkillEntry> := [
    ("python", ["python"]),
    ("sql", ["sql"]),
    ("r", [" r ", " r,", " r."]),
    ("machine learning", ["machine learning", "ml"]),
    ("deep learning", ["deep learning", "dl"]),
    ("nlp", ["nlp", "natural language processing"]),
    ("data visualization", ["data visualization", "visualization"]),
    ("matplotlib", ["matplotlib"]),
    ("seaborn", ["seaborn"]),
    ("power bi", ["power bi", "powerbi"]),
    ("aws", ["aws", "amazon web services"]),
    ("docker", ["docker"]),
    ("excel", ["excel"]),
    ("react", ["react"]),
    ("angular", ["angular"])
  ]

  const CanonicalNames: set<string> := set k | 0 <= k < |SkillMap| :: SkillMap[k].0

  // ---------------------------------------------------------------------
  // preprocess_text
  // ---------------------------------------------------------------------

  /** The shape of preprocessed text: no upper-case letter, ' ' is the only
      whitespace character, and never two spaces in a row. */
  predicate Normalized(t: string) {
    && NoUpper(t)
    && (forall i :: 0 <= i < |t| && IsSpace(t[i]) ==> t[i] == ' ')
    && (forall i :: 0 <= i < |t| - 1 ==> !(t[i] == ' ' && t[i + 1] == ' '))
  }

  /** `re.sub(r'\s+', ' ', s)`: each maximal whitespace run becomes one space.
      `inRun` says that the character before s was whitespace, so a run
      continuing into s has already produced its space. */
  function Collapse(s: string, inRun: bool): (r: string)
    ensures |r| <= |s|
    ensures !inRun && |s| > 0 ==> |r| > 0
    ensures inRun && |r| > 0 ==> r[0] != ' '
    ensures forall i :: 0 <= i < |r| && IsSpace(r[i]) ==> r[i] == ' '
    ensures forall i :: 0 <= i < |r| - 1 ==> !(r[i] == ' ' && r[i + 1] == ' ')
    ensures NoUpper(s) ==> NoUpper(r)
  {
    if s == [] then
      []
    else if IsSpace(s[0]) then
      if inRun then Collapse(s[1..], true) else " " + Collapse(s[1..], true)
    else
      [s[0]] + Collapse(s[1..], false)
  }

  /** preprocess_text: lower-case, then collapse whitespace runs; no trimming. */
  function PreprocessText(text: string): (r: string)
    ensures Normalized(r)
    ensures |r| <= |text|
    ensures r == [] <==> text == []
  {
    Collapse(Lower(text), false)
  }

  /** Whether the end of s (preceded by a run state `inRun`) is inside a
      whitespace run. */
  function EndsInRun(s: string, inRun: bool): bool {
    if s == [] then inRun else IsSpace(s[|s| - 1])
  }

  lemma {:induction false} CollapseConcat(a: string, b: string, inRun: bool)
    ensures Collapse(a + b, inRun) == Collapse(a, inRun) + Collapse(b, EndsInRun(a, inRun))
    decreases |a|
  {
    if a != [] {
      assert (a + b)[0] == a[0];
      assert (a + b)[1..] == a[1..] + b;
      CollapseConcat(a[1..], b, IsSpace(a[0]));
      assert EndsInRun(a[1..], IsSpace(a[0])) == EndsInRun(a, inRun);
    } else {
      assert a + b == b;
    }
  }

  /** A string not starting with whitespace collapses the same whatever
      came before it. */
  lemma CollapseFromWord(s: string, inRun: bool)
    requires s == [] || !IsSpace(s[0])
    ensures Collapse(s, inRun) == Collapse(s, false)
  {
  }

  /** A normalized string is a fixed point of the collapse. */
  lemma {:induction false} CollapseFixed(t: string, inRun: bool)
    requires Normalized(t)
    requires inRun ==> t == [] || t[0] != ' '
    ensures Collapse(t, inRun) == t
    decreases |t|
  {
    if t != [] {
      assert Normalized(t[1..]);
      CollapseFixed(t[1..], IsSpace(t[0]));
    }
  }

  /** Normalisation is idempotent. */
  lemma PreprocessIdempotent(text: string)
    ensures PreprocessText(PreprocessText(text)) == PreprocessText(text)
  {
    var r := PreprocessText(text);
    LowerOfLowercase(r);
    CollapseFixed(r, false);
  }

  /** A word (no whitespace) is only lowered. */
  lemma {:induction false} PreprocessWord(s: string)
    requires forall i :: 0 <= i < |s| ==> !IsSpace(s[i])
    ensures PreprocessText(s) == Lower(s)
  {
    CollapseWord(Lower(s));
  }

  lemma {:induction false} CollapseWord(s: string)
    requires forall i :: 0 <= i < |s| ==> !IsSpace(s[i])
    ensures Collapse(s, false) == s
    decreases |s|
  {
    if s != [] {
      CollapseWord(s[1..]);
    }
  }

  /** A non-empty whitespace run becomes exactly one space. */
  lemma PreprocessRun(s: string)
    requires |s| > 0 && forall i :: 0 <= i < |s| ==> IsSpace(s[i])
    ensures PreprocessText(s) == " "
  {
    var l := Lower(s);
    CollapseRun(l[1..]);
  }

  lemma {:induction false} CollapseRun(s: string)
    requires forall i :: 0 <= i < |s| ==> IsSpace(s[i])
    ensures Collapse(s, true) == []
    decreases |s|
  {
    if s != [] {
      CollapseRun(s[1..]);
    }
  }

  /** Normalising distributes over a cut that does not split a whitespace
      run. With PreprocessWord and PreprocessRun this pins PreprocessText
      down on every input: cut the text into maximal runs and words. */
  lemma PreprocessSplit(a: string, b: string)
    requires a == [] || b == [] || !IsSpace(a[|a| - 1]) || !IsSpace(b[0])
    ensures PreprocessText(a + b) == PreprocessText(a) + PreprocessText(b)
  {
    LowerConcat(a, b);
    var la, lb := Lower(a), Lower(b);
    CollapseConcat(la, lb, false);
    if EndsInRun(la, false) {
      CollapseFromWord(lb, true);
    }
  }

  /** A non-empty string whose last character is whitespace collapses to a
      string ending in a space. */
  lemma {:induction false} CollapseEndsInSpace(s: string)
    requires |s| > 0 && IsSpace(s[|s| - 1])
    ensures var r := Collapse(s, false); |r| > 0 && r[|r| - 1] == ' '
    decreases |s|
  {
    var a := s[..|s| - 1];
    assert s == a + [s[|s| - 1]];
    CollapseConcat(a, [s[|s| - 1]], false);
    if a != [] && IsSpace(a[|a| - 1]) {
      CollapseEndsInSpace(a);
    }
  }

  /** No trimming: a leading or trailing whitespace run stays as exactly one
      space, and a leading or trailing non-space character is kept, lowered. */
  lemma PreprocessKeepsEdges(s: string)
    requires |s| > 0
    ensures var r := PreprocessText(s);
      && |r| > 0
      && r[0] == (if IsSpace(s[0]) then ' ' else ToLower(s[0]))
      && r[|r| - 1] == (if IsSpace(s[|s| - 1]) then ' ' else ToLower(s[|s| - 1]))
  {
    var l := Lower(s);
    var n := |l|;
    var a := l[..n - 1];
    assert l == a + [l[n - 1]];
    CollapseConcat(a, [l[n - 1]], false);
    if IsSpace(l[n - 1]) {
      CollapseEndsInSpace(l);
    }
  }

  /** The non-whitespace characters of s, in order. */
  function NonSpace(s: string): string {
    if s == [] then [] else (if IsSpace(s[0]) then [] else [s[0]]) + NonSpace(s[1..])
  }

  lemma {:induction false} NonSpaceCollapse(s: string, inRun: bool)
    ensures NonSpace(Collapse(s, inRun)) == NonSpace(s)
    decreases |s|
  {
    if s != [] {
      NonSpaceCollapse(s[1..], IsSpace(s[0]));
      var rest := Collapse(s[1..], IsSpace(s[0]));
      if IsSpace(s[0]) {
        assert (" " + rest)[1..] == rest;
      } else {
        assert ([s[0]] + rest)[1..] == rest;
      }
    }
  }

  lemma {:induction false} NonSpaceLower(s: string)
    ensures NonSpace(Lower(s)) == Lower(NonSpace(s))
    decreases |s|
  {
    if s != [] {
      assert Lower(s)[1..] == Lower(s[1..]);
      NonSpaceLower(s[1..]);
      LowerConcat(if IsSpace(s[0]) then [] else [s[0]], NonSpace(s[1..]));
    }
  }

  /** Every non-whitespace character survives normalisation, in order, lowered. */
  lemma PreprocessKeepsContent(s: string)
    ensures NonSpace(PreprocessText(s)) == Lower(NonSpace(s))
  {
    NonSpaceCollapse(Lower(s), false);
    NonSpaceLower(s);
  }

  // ---------------------------------------------------------------------
  // extract_skills
  // ---------------------------------------------------------------------

  /** The text the variants are searched in: lowered, one space each side. */
  function Padded(text: string): string {
    " " + Lower(text) + " "
  }

  /** Some variant of the entry is a substring of t. */
  ghost predicate Reveals(entry: SkillEntry, t: string) {
    exists j :: 0 <= j < |entry.1| && Occurs(entry.1[j], t)
  }

  /** The inner loop: tries vs[j], vs[j+1], ... and stops at the first hit. */
  function AnyVariantFrom(vs: seq<string>, t: string, j: nat): bool
    decreases |vs| - j
  {
    j < |vs| && (ContainsFrom(t, vs[j], 0) || AnyVariantFrom(vs, t, j + 1))
  }

  lemma {:induction false} AnyVariantFromSpec(vs: seq<string>, t: string, j: nat)
    ensures AnyVariantFrom(vs, t, j) <==> exists k :: j <= k < |vs| && Occurs(vs[k], t)
    decreases |vs| - j
  {
    if j < |vs| {
      AnyVariantFromSpec(vs, t, j + 1);
      ContainsFromSpec(t, vs[j], 0);
      if exists k :: j <= k < |vs| && Occurs(vs[k], t) {
        var k :| j <= k < |vs| && Occurs(vs[k], t);
        assert k == j || j + 1 <= k;
      }
    }
  }

  /** The outer loop over table[n..]: the canonical names of the entries
      that some variant reveals. */
  function ScanFrom(table: seq<SkillEntry>, t: string, n: nat): set<string>
    requires n <= |table|
    decreases |table| - n
  {
    if n == |table| then
      {}
    else
      (if AnyVariantFrom(table[n].1, t, 0) then {table[n].0} else {}) + ScanFrom(table, t, n + 1)
  }

  lemma {:induction false} ScanFromSpec(table: seq<SkillEntry>, t: string, n: nat)
    requires n <= |table|
    ensures forall c :: c in ScanFrom(table, t, n) <==>
      exists k :: n <= k < |table| && table[k].0 == c && Reveals(table[k], t)
    decreases |table| - n
  {
    if n < |table| {
      ScanFromSpec(table, t, n + 1);
      AnyVariantFromSpec(table[n].1, t, 0);
      forall c | exists k :: n <= k < |table| && table[k].0 == c && Reveals(table[k], t)
        ensures c in ScanFrom(table, t, n)
      {
        var k :| n <= k < |table| && table[k].0 == c && Reveals(table[k], t);
        assert k == n || n + 1 <= k;
      }
    }
  }

  /** Each entry adds at most one name. */
  lemma {:induction false} ScanFromSize(table: seq<SkillEntry>, t: string, n: nat)
    requires n <= |table|
    ensures |ScanFrom(table, t, n)| <= |table| - n
    decreases |table| - n
  {
    if n < |table| {
      ScanFromSize(table, t, n + 1);
      var here: set<string> := if AnyVariantFrom(table[n].1, t, 0) then {table[n].0} else {};
      var rest := ScanFrom(table, t, n + 1);
      assert |here + rest| <= |here| + |rest|;
    }
  }

  /** extract_skills over an arbitrary table of entries. */
  function ExtractSkillsWith(table: seq<SkillEntry>, text: string): (found: set<string>)
    ensures forall c :: c in found <==> exists e :: e in table && e.0 == c && Reveals(e, Padded(text))
    ensures |found| <= |table|
  {
    var found := ScanFrom(table, Padded(text), 0);
    ScanFromSpec(table, Padded(text), 0);
    ScanFromSize(table, Padded(text), 0);
    assert forall k :: 0 <= k < |table| ==> table[k] in table;
    found
  }

  /** Skill c is detected in text: a variant of c is a substring of the
      padded, lowered text. */
  ghost predicate Detected(text: string, c: string) {
    exists e :: e in SkillMap && e.0 == c && Reveals(e, Padded(text))
  }

  /** extract_skills: the canonical names whose variants occur in the padded,
      lowered text; only names of the table, each at most once. */
  function ExtractSkills(text: string): (found: set<string>)
    ensures forall c :: c in found <==> Detected(text, c)
    ensures found <= CanonicalNames
    ensures |found| <= |SkillMap|
  {
    ExtractSkillsWith(SkillMap, text)
  }

  /** The order of the table does not matter: two tables with the same
      entries extract the same skills. */
  lemma ExtractSkillsOrderFree(t1: seq<SkillEntry>, t2: seq<SkillEntry>, text: string)
    requires forall e :: e in t1 <==> e in t2
    ensures ExtractSkillsWith(t1, text) == ExtractSkillsWith(t2, text)
  {
  }

  /** Skill extraction ignores case. */
  lemma ExtractSkillsIgnoresCase(text: string)
    ensures ExtractSkills(Lower(text)) == ExtractSkills(text)
  {
    LowerIdempotent(text);
  }
}

=== FILE: rounding.dfy ===
/**
 Python's `round(x, 2)` on exact reals: the nearest multiple of one
 hundredth, ties going to the even multiple. Binary floating point is not
 modelled; the scores are exact rationals.
 */
module Rounding {

  /** x is a whole number of hundredths. */
  predicate IsCents(x: real) {
    (x * 100.0).Floor as real == x * 100.0
  }

  function RoundCents(x: real): (r: real)
    ensures IsCents(r)
    ensures r - x <= 0.005 && x - r <= 0.005
    ensures IsCents(x) ==> r == x
    ensures (r - x == 0.005 || x - r == 0.005) ==> (r * 100.0).Floor % 2 == 0
    ensures 0.0 <= x ==> 0.0 <= r
    ensures x <= 100.0 ==> r <= 100.0
  {
    var scaled := x * 100.0;
    var n := scaled.Floor;
    var frac := scaled - n as real;
    var m := if frac < 0.5 then n else if frac > 0.5 then n + 1 else if n % 2 == 0 then n else n + 1;
    assert (m as real / 100.0) * 100.0 == m as real;
    m as real / 100.0
  }

  /** Rounding never reverses the order of two scores. */
  lemma RoundCentsMonotone(x: real, y: real)
    requires x <= y
    ensures RoundCents(x) <= RoundCents(y)
  {
    var nx, ny := (x * 100.0).Floor, (y * 100.0).Floor;
    assert nx <= ny;
  }
}

=== FILE: scenarios.dfy ===
/**
 End-to-end consequences of compute_match_percentage: the fail-safe for a
 job description without recognised skills, an empty resume, a partial
 skill match with enough experience, and a band decided before rounding.
 Each is proved first on the combination of the two component results and
 then carried over to the texts.
 */
module Scenarios {
  import opened Text
  import opened Rounding
  import opened ResumeParser
  import opened SkillExamples
  import opened Similarity

  /** The empty text mentions no years. */
  lemma EmptyTextHasNoYears(text: string)
    requires text == ""
    ensures ExtractYears(text) == 0
  {
    UnitsValid();
    assert YearsFound(Lower(text)) == [];
  }

  /** The empty text has no skills, normalised or not. */
  lemma EmptyTextSkills(text: string)
    requires text == ""
    ensures SkillsOf(text) == {}
  {
    var p := PreprocessText(text);
    assert p == "";
    EmptyTextHasNoSkills(p);
  }

  /** A strong band needs a skill score of at least 60: with experience
      worth at most 30 points, 80 points need more than 71 skill percent. */
  lemma StrongBandHasSkills(resume: string, jd: string)
    ensures var r := ComputeMatchPercentage(resume, jd);
      r.hiringJustification == StrongJustification ==> LowSkillMatch !in r.rejectionReasons
  {
    var r := ComputeMatchPercentage(resume, jd);
    if r.hiringJustification == StrongJustification {
      assert Weighted(r.skillScore, r.experienceScore) >= 80.0;
      assert r.skillScore * 0.7 >= 50.0;
    }
  }

  /** With skill score 0 the final score is 30 percent of the experience
      score, below every band but the last. */
  lemma CombineWithoutSkills(s: SkillMatch, x: ExperienceMatch)
    requires s.score == 0.0 && 0.0 <= x.score <= 100.0
    ensures var r := CombineScores(s, x);
      && Weighted(s.score, x.score) == x.score * 0.3
      && r.finalScore <= 30.0
      && LowSkillMatch in r.rejectionReasons
      && r.hiringJustification == RejectJustification
  {
  }

  /** A job description without recognised skills gives skill score 0 with
      no matched and no missing skills whatever the resume; the final score
      is then 30 percent of the experience score and the candidate is
      rejected for low skill match alone as far as skills go. */
  lemma NoJobSkills(resume: string, jd: string)
    requires SkillsOf(jd) == {}
    ensures var r := ComputeMatchPercentage(resume, jd);
      && r.skillScore == 0.0 && r.matchedSkills == {} && r.missingSkills == {}
      && Weighted(r.skillScore, r.experienceScore) == r.experienceScore * 0.3
      && r.finalScore <= 30.0
      && LowSkillMatch in r.rejectionReasons
      && (forall rr :: rr in r.rejectionReasons ==> !rr.MissingRequiredSkills?)
      && r.hiringJustification == RejectJustification
  {
    var s, x := SkillMatch(0.0, {}, {}), ExperienceMatchScore(resume, jd);
    assert SkillMatchScore(resume, jd) == s;
    assert ComputeMatchPercentage(resume, jd) == CombineScores(s, x);
    CombineWithoutSkills(s, x);
  }

  /** Without resume skills every job skill is missing and the score is 0. */
  lemma NothingMatched(jobSkills: set<string>)
    requires jobSkills != {} && |jobSkills| <= |SkillMap|
    ensures ScoreSkills({}, jobSkills) == SkillMatch(0.0, {}, jobSkills)
  {
    var s := ScoreSkills({}, jobSkills);
    assert s.matched == {};
    assert s.missing == jobSkills;
  }

  /** An empty resume against a job description with skills: every job
      skill is missing, the skill score is 0, no years are claimed, and both
      skill reasons are given. */
  lemma EmptyResume(resume: string, jd: string)
    requires resume == "" && SkillsOf(jd) != {}
    ensures var r := ComputeMatchPercentage(resume, jd);
      && r.matchedSkills == {} && r.missingSkills == SkillsOf(jd)
      && r.skillScore == 0.0 && r.resumeYears == 0
      && MissingRequiredSkills(SkillsOf(jd)) in r.rejectionReasons
      && LowSkillMatch in r.rejectionReasons
      && r.hiringJustification == RejectJustification
  {
    EmptyTextSkills(resume);
    EmptyTextHasNoYears(resume);
    NothingMatched(SkillsOf(jd));
    var s, x := SkillMatch(0.0, {}, SkillsOf(jd)), ExperienceMatchScore(resume, jd);
    assert SkillMatchScore(resume, jd) == s;
    CombineWithoutSkills(s, x);
    assert ComputeMatchPercentage(resume, jd) == CombineScores(s, x);
  }

  /** One of two required skills and full experience credit: final score
      65 in the moderate band, rejected for the missing skill and the low
      skill match. */
  lemma CombineHalfSkillsFullCredit(s: SkillMatch, x: ExperienceMatch, lack: string)
    requires s.score == 50.0 && s.missing == {lack} && x.score == 100.0
    ensures var r := CombineScores(s, x);
      && r.finalScore == 65.0
      && r.rejectionReasons == [MissingRequiredSkills({lack}), LowSkillMatch]
      && r.hiringJustification == ModerateJustification
  {
    assert Weighted(50.0, 100.0) == 65.0;
    assert IsCents(65.0);
  }

  /** The skill half: a job asking for two skills, one of which the resume
      has. */
  lemma HalfSkills(resumeSkills: set<string>, jobSkills: set<string>, have: string, lack: string)
    requires jobSkills == {have, lack} && have != lack
    requires have in resumeSkills && lack !in resumeSkills
    ensures ScoreSkills(resumeSkills, jobSkills) == SkillMatch(50.0, {have}, {lack})
  {
    var s := ScoreSkills(resumeSkills, jobSkills);
    assert s.matched == {have} && s.missing == {lack};
    assert |s.matched| == 1 && |jobSkills| == 2;
    assert Percent(1, 2) == 50.0 && IsCents(50.0);
  }

  /** A job asking for two skills (python and sql, say) and 5 years,
      against a resume with one of them (python) claiming 6 years: skill
      score 50, full experience credit, final score 65 in the moderate
      band. */
  lemma HalfSkillsEnoughYears(resume: string, jd: string, have: string, lack: string)
    requires SkillsOf(jd) == {have, lack} && have != lack
    requires have in SkillsOf(resume) && lack !in SkillsOf(resume)
    requires ExtractYears(resume) == 6 && ExtractYears(jd) == 5
    ensures var r := ComputeMatchPercentage(resume, jd);
      && r.matchedSkills == {have} && r.missingSkills == {lack}
      && r.skillScore == 50.0 && r.experienceScore == 100.0
      && r.finalScore == 65.0
      && r.rejectionReasons == [MissingRequiredSkills({lack}), LowSkillMatch]
      && r.hiringJustification == ModerateJustification
  {
    HalfSkills(SkillsOf(resume), SkillsOf(jd), have, lack);
    assert SkillMatchScore(resume, jd) == ScoreSkills(SkillsOf(resume), SkillsOf(jd));
    var s, x := SkillMatch(50.0, {have}, {lack}), ExperienceMatchScore(resume, jd);
    assert x.score == 100.0;
    CombineHalfSkillsFullCredit(s, x, lack);
    assert ComputeMatchPercentage(resume, jd) == CombineScores(s, x);
  }

  /** One of three required years gives 33.33 experience credit; with every
      skill matched the weighted score is 79.999, reported as 80 while the
      band, chosen before rounding, stays moderate. */
  lemma CombineFullSkillsThirdOfYears(s: SkillMatch, x: ExperienceMatch)
    requires s.score == 100.0 && x.score == ExperienceCredit(1, 3)
    ensures var r := CombineScores(s, x);
      && x.score == 33.33
      && r.finalScore == 80.0
      && r.hiringJustification == ModerateJustification
  {
    var third := Percent(1, 3);
    assert third * 100.0 == 10000.0 / 3.0;
    FloorOf(third * 100.0, 3333);
    assert RoundCents(third) == 33.33;
    assert Weighted(100.0, 33.33) == 79.999;
    FloorOf(79.999 * 100.0, 7999);
    assert RoundCents(79.999) == 80.0;
  }

  lemma RoundedEightyStaysModerate(resume: string, jd: string)
    requires SkillsOf(jd) != {} && SkillsOf(jd) <= SkillsOf(resume)
    requires ExtractYears(resume) == 1 && ExtractYears(jd) == 3
    ensures var r := ComputeMatchPercentage(resume, jd);
      && r.skillScore == 100.0 && r.experienceScore == 33.33
      && r.finalScore == 80.0
      && r.hiringJustification == ModerateJustification
  {
    var s, x := ScoreSkills(SkillsOf(resume), SkillsOf(jd)), ExperienceMatchScore(resume, jd);
    assert SkillMatchScore(resume, jd) == s;
    assert s.missing == {};
    assert x.score == ExperienceCredit(1, 3);
    CombineFullSkillsThirdOfYears(s, x);
    assert ComputeMatchPercentage(resume, jd) == CombineScores(s, x);
  }

  /** 11 of 14 job skills score 78.57 and 1 of 6 years scores 16.67; their
      exact weighting is 60.0, on the boundary of the moderate band. */
  lemma BoundaryWeightIsModerate()
    ensures RoundCents(Percent(11, 14)) == 78.57
    ensures ExperienceCredit(1, 6) == 16.67
    ensures Weighted(78.57, 16.67) == 60.0
    ensures Justification(Weighted(78.57, 16.67)) == ModerateJustification
  {
    FloorOf(Percent(11, 14) * 100.0, 7857);
    PartialCredit(1, 6);
    FloorOf(Percent(1, 6) * 100.0, 1666);
  }

  /** 247 of 2000 years score 12.35 exactly; with skill score 10 the exact
      weighting 10.705 is a tie, rounded to the even hundredth 10.70. */
  lemma TieRoundsToEven()
    ensures ExperienceCredit(247, 2000) == 12.35
    ensures Weighted(10.0, 12.35) == 10.705
    ensures RoundCents(10.705) == 10.70
  {
    PartialCredit(247, 2000);
    assert Percent(247, 2000) == 12.35 && IsCents(12.35);
    FloorOf(10.705 * 100.0, 1070);
  }

  /** Two missing skills, listed in either order, are joined with ", "
      after the fixed prefix. */
  lemma MissingTwoSkillsMessage(order: seq<string>)
    requires multiset(order) == multiset({"sql", "python"})
    ensures ReasonText(MissingRequiredSkills({"sql", "python"}), order) == "Missing required skills: sql, python"
         || ReasonText(MissingRequiredSkills({"sql", "python"}), order) == "Missing required skills: python, sql"
  {
    var m := multiset({"sql", "python"});
    assert m["sql"] == 1 && m["python"] == 1 && |m| == 2;
    assert |order| == 2;
    assert order == [order[0]] + [order[1]];
    assert multiset(order) == multiset{order[0]} + multiset{order[1]};
    assert order[0] != order[1];
    assert order[0] in m && order[1] in m;
    assert JoinComma(order) == order[0] + ", " + order[1] by {
      assert order[1..] == [order[1]];
    }
    assert order[0] == "sql" || order[0] == "python";
    if order[0] == "sql" {
      assert order[1] == "python";
      assert ReasonText(MissingRequiredSkills({"sql", "python"}), order) == MissingPrefix + "sql, python";
    } else {
      assert order[1] == "sql";
      assert ReasonText(MissingRequiredSkills({"sql", "python"}), order) == MissingPrefix + "python, sql";
      assert MissingPrefix + "python, sql" == "Missing required skills: python, sql";
    }
  }
}

=== FILE: similarity.dfy ===
/**
 The scoring half of the resume screener (similarity.py): years of
 experience mentioned in a text, skill overlap, experience comparison,
 the explanation rules and the weighted final score.
 */
module Similarity {
  import opened Text
  import opened Rounding
  import opened ResumeParser

  datatype Option<T> = None | Some(value: T)

  // ---------------------------------------------------------------------
  // extract_years
  // ---------------------------------------------------------------------

  /** The words of the two patterns `(\d+)\+?\s*years` and `(\d+)\+?\s*yrs`,
      in the order they are searched. */
  const Units: seq<string> := ["years", "yrs"]

  /** A unit word the scanner can handle: no digit in it, and its first
      character is neither whitespace nor '+'. */
  predicate ValidUnit(unit: string) {
    && |unit| > 0
    && !IsSpace(unit[0]) && unit[0] != '+'
    && forall j :: 0 <= j < |unit| ==> !IsDigit(unit[j])
  }

  predicate AllDigits(s: string) {
    forall j :: 0 <= j < |s| ==> IsDigit(s[j])
  }

  predicate AllSpace(s: string) {
    forall j :: 0 <= j < |s| ==> IsSpace(s[j])
  }

  /** Python's `int()` on a string of ASCII digits. */
  function Value(s: string): nat
    requires AllDigits(s)
  {
    if s == [] then 0 else 10 * Value(s[..|s| - 1]) + (s[|s| - 1] as int - '0' as int)
  }

  /** Dropping leading digits never increases the number. */
  lemma {:induction false} ValueSuffix(s: string, j: nat)
    requires AllDigits(s) && j <= |s|
    ensures Value(s[j..]) <= Value(s)
    decreases |s|
  {
    if j < |s| {
      var n := |s|;
      ValueSuffix(s[..n - 1], j);
      assert s[j..][..|s[j..]| - 1] == s[..n - 1][j..];
    }
  }

  /** `\+?\s*unit` matches t from q, with the unit word at m. */
  predicate SuffixAt(t: string, unit: string, q: int, m: int) {
    && 0 <= q <= m && m + |unit| <= |t|
    && t[m..m + |unit|] == unit
    && (AllSpace(t[q..m]) || (q < m && t[q] == '+' && AllSpace(t[q + 1..m])))
  }

  /** The pattern `(\d+)\+?\s*unit` matches t at i, its digit group being
      t[i..q]. This is the language of the pattern, with no reference to how
      a regular-expression engine searches. */
  ghost predicate Capture(t: string, unit: string, i: int, q: int) {
    && 0 <= i < q <= |t|
    && AllDigits(t[i..q])
    && exists m :: SuffixAt(t, unit, q, m)
  }

  /** The end of the digit run starting at i. */
  function DigitsEnd(t: string, i: nat): (q: nat)
    requires i <= |t|
    ensures i <= q <= |t| && AllDigits(t[i..q])
    ensures q == |t| || !IsDigit(t[q])
    decreases |t| - i
  {
    if i < |t| && IsDigit(t[i]) then
      var q := DigitsEnd(t, i + 1);
      assert t[i..q] == [t[i]] + t[i + 1..q];
      q
    else
      i
  }

  /** The end of the whitespace run starting at k. */
  function SpacesEnd(t: string, k: nat): (m: nat)
    requires k <= |t|
    ensures k <= m <= |t| && AllSpace(t[k..m])
    ensures m == |t| || !IsSpace(t[m])
    decreases |t| - k
  {
    if k < |t| && IsSpace(t[k]) then
      var m := SpacesEnd(t, k + 1);
      assert t[k..m] == [t[k]] + t[k + 1..m];
      m
    else
      k
  }

  /** One attempt of the regular-expression engine at position i: the greedy
      digit run, an optional '+', the greedy whitespace run, then the unit
      word. On success it gives the end of the digit group and the end of
      the whole match. */
  function TryMatch(t: string, unit: string, i: nat): (r: Option<(nat, nat)>)
    requires ValidUnit(unit) && i <= |t|
    ensures r.Some? ==> i < r.value.0 < r.value.1 <= |t| && AllDigits(t[i..r.value.0])
    ensures r.Some? ==> forall j :: r.value.0 <= j < r.value.1 ==> !IsDigit(t[j])
  {
    var q := DigitsEnd(t, i);
    var k := if q < |t| && t[q] == '+' then q + 1 else q;
    var m := SpacesEnd(t, k);
    if q > i && m + |unit| <= |t| && t[m..m + |unit|] == unit then
      assert forall j :: m <= j < m + |unit| ==> t[j] == unit[j - m];
      Some((q, m + |unit|))
    else
      None
  }

  /** The digit group of a match ends where the digit run ends. */
  lemma CaptureRunEnd(t: string, unit: string, i: int, q: int)
    requires ValidUnit(unit) && Capture(t, unit, i, q)
    ensures q < |t| && !IsDigit(t[q])
  {
    var m :| SuffixAt(t, unit, q, m);
    if q == m {
      assert t[q] == unit[0];
    } else {
      assert t[q] == '+' || t[q..m][0] == t[q];
    }
  }

  /** A successful greedy attempt is a match of the pattern. */
  lemma TryMatchSound(t: string, unit: string, i: nat)
    requires ValidUnit(unit) && i <= |t|
    ensures TryMatch(t, unit, i).Some? ==> Capture(t, unit, i, TryMatch(t, unit, i).value.0)
  {
    var q0 := DigitsEnd(t, i);
    var k0 := if q0 < |t| && t[q0] == '+' then q0 + 1 else q0;
    var m0 := SpacesEnd(t, k0);
    if TryMatch(t, unit, i).Some? {
      if k0 == q0 {
        assert SuffixAt(t, unit, q0, m0);
      } else {
        assert SuffixAt(t, unit, q0, m0);
      }
    }
  }

  /** Every match of the pattern at i is found by the greedy attempt, with
      the same digit group. */
  lemma TryMatchComplete(t: string, unit: string, i: nat)
    requires ValidUnit(unit) && i <= |t|
    ensures forall q :: Capture(t, unit, i, q) ==> TryMatch(t, unit, i).Some? && TryMatch(t, unit, i).value.0 == q
  {
    var q0 := DigitsEnd(t, i);
    var k0 := if q0 < |t| && t[q0] == '+' then q0 + 1 else q0;
    var m0 := SpacesEnd(t, k0);
    forall q | Capture(t, unit, i, q)
      ensures TryMatch(t, unit, i).Some? && TryMatch(t, unit, i).value.0 == q
    {
      CaptureRunEnd(t, unit, i, q);
      assert q == q0;
      var m :| SuffixAt(t, unit, q, m);
      if q < m && t[q] == '+' {
        SpaceRunEnd(t, unit, k0, m, m0);
      } else {
        assert t[m] == unit[0];
        SpaceRunEnd(t, unit, k0, m, m0);
      }
    }
  }

  /** Backtracking cannot help: the pattern matches at i exactly when the
      greedy attempt succeeds, and then with the same digit group. */
  lemma TryMatchExact(t: string, unit: string, i: nat)
    requires ValidUnit(unit) && i <= |t|
    ensures TryMatch(t, unit, i).Some? ==> Capture(t, unit, i, TryMatch(t, unit, i).value.0)
    ensures forall q :: Capture(t, unit, i, q) ==> TryMatch(t, unit, i).Some? && TryMatch(t, unit, i).value.0 == q
  {
    TryMatchSound(t, unit, i);
    TryMatchComplete(t, unit, i);
  }

  /** The unit word starts right where the whitespace run ends. */
  lemma SpaceRunEnd(t: string, unit: string, k: nat, m: int, m0: nat)
    requires ValidUnit(unit) && k <= m && m + |unit| <= |t| && t[m..m + |unit|] == unit
    requires AllSpace(t[k..m])
    requires k <= m0 <= |t| && AllSpace(t[k..m0]) && (m0 == |t| || !IsSpace(t[m0]))
    ensures m == m0
  {
    assert t[m] == unit[0];
  }

  /** `re.findall` for one pattern from position p: try a match at p; after
      a match resume at its end, otherwise at p + 1. Collects the numbers of
      the digit groups, in text order. Every number reported belongs to a
      match of the pattern, and every match of the pattern, even one
      starting inside a digit run, has a number no larger than one
      reported. */
  function FindAll(t: string, unit: string, p: nat): (xs: seq<nat>)
    requires ValidUnit(unit) && p <= |t|
    ensures forall x :: x in xs ==> MatchValue(t, unit, p, x)
    ensures Covers(t, unit, p, xs)
    decreases |t| - p
  {
    if p == |t| then
      []
    else
      match TryMatch(t, unit, p)
      case Some((q, e)) =>
        var rest := FindAll(t, unit, e);
        SoundMatch(t, unit, p, q, e, rest);
        CoversMatch(t, unit, p, q, e, rest);
        [Value(t[p..q])] + rest
      case None =>
        var rest := FindAll(t, unit, p + 1);
        SoundSkip(t, unit, p, rest);
        CoversSkip(t, unit, p, rest);
        rest
  }

  /** x is the number of a match of the pattern starting at p or later. */
  ghost predicate MatchValue(t: string, unit: string, p: int, x: nat) {
    exists i, q :: p <= i && Capture(t, unit, i, q) && Value(t[i..q]) == x
  }

  /** Where the attempt at p succeeds, its number is that of a match at p. */
  lemma SoundMatch(t: string, unit: string, p: nat, q: nat, e: nat, xs: seq<nat>)
    requires ValidUnit(unit) && p < |t| && TryMatch(t, unit, p) == Some((q, e))
    requires forall x :: x in xs ==> MatchValue(t, unit, e, x)
    ensures forall x :: x in [Value(t[p..q])] + xs ==> MatchValue(t, unit, p, x)
  {
    TryMatchExact(t, unit, p);
    forall x | x in [Value(t[p..q])] + xs
      ensures MatchValue(t, unit, p, x)
    {
      if x in xs {
        var i, q' :| e <= i && Capture(t, unit, i, q') && Value(t[i..q']) == x;
      } else {
        assert Capture(t, unit, p, q) && Value(t[p..q]) == x;
      }
    }
  }

  /** Where the attempt at p fails, the numbers found later still belong to
      matches at p or later. */
  lemma SoundSkip(t: string, unit: string, p: nat, xs: seq<nat>)
    requires forall x :: x in xs ==> MatchValue(t, unit, p + 1, x)
    ensures forall x :: x in xs ==> MatchValue(t, unit, p, x)
  {
    forall x | x in xs
      ensures MatchValue(t, unit, p, x)
    {
      var i, q' :| p + 1 <= i && Capture(t, unit, i, q') && Value(t[i..q']) == x;
    }
  }

  /** findall passes over a stretch without digits: no attempt inside it
      can succeed. */
  lemma {:induction false} SkipNoDigits(t: string, unit: string, p: nat, q: nat)
    requires ValidUnit(unit) && p <= q <= |t|
    requires forall k :: p <= k < q ==> !IsDigit(t[k])
    ensures FindAll(t, unit, p) == FindAll(t, unit, q)
    decreases q - p
  {
    if p < q {
      assert DigitsEnd(t, p) == p;
      SkipNoDigits(t, unit, p + 1, q);
    }
  }

  /** Every match of the pattern starting at p or later has a number no
      larger than some element of xs. */
  ghost predicate Covers(t: string, unit: string, p: int, xs: seq<nat>) {
    forall i, q :: p <= i && Capture(t, unit, i, q) ==>
      exists x :: x in xs && Value(t[i..q]) <= x
  }

  /** Where the engine's attempt at p fails, no match starts at p. */
  lemma CoversSkip(t: string, unit: string, p: nat, xs: seq<nat>)
    requires ValidUnit(unit) && p < |t| && TryMatch(t, unit, p).None?
    requires Covers(t, unit, p + 1, xs)
    ensures Covers(t, unit, p, xs)
  {
    TryMatchExact(t, unit, p);
    forall i, q | p <= i && Capture(t, unit, i, q)
      ensures exists x :: x in xs && Value(t[i..q]) <= x
    {
      assert p + 1 <= i;
    }
  }

  /** Where the attempt at p succeeds, a match starting inside its digit
      group has a suffix of that group as its digits, so a smaller number;
      none starts in the rest of the match, which holds no digit. */
  lemma CoversMatch(t: string, unit: string, p: nat, q0: nat, e: nat, xs: seq<nat>)
    requires ValidUnit(unit) && p < |t| && TryMatch(t, unit, p) == Some((q0, e))
    requires Covers(t, unit, e, xs)
    ensures Covers(t, unit, p, [Value(t[p..q0])] + xs)
  {
    TryMatchExact(t, unit, p);
    var found := [Value(t[p..q0])] + xs;
    forall i, q | p <= i && Capture(t, unit, i, q)
      ensures exists x :: x in found && Value(t[i..q]) <= x
    {
      if i < q0 {
        CaptureRunEnd(t, unit, i, q);
        assert !IsDigit(t[q0]);
        assert forall j :: p <= j < q0 ==> IsDigit(t[j]) by {
          forall j | p <= j < q0 ensures IsDigit(t[j]) { assert t[p..q0][j - p] == t[j]; }
        }
        assert forall j :: i <= j < q ==> IsDigit(t[j]) by {
          forall j | i <= j < q ensures IsDigit(t[j]) { assert t[i..q][j - i] == t[j]; }
        }
        assert q == q0;
        assert t[i..q] == t[p..q0][i - p..];
        ValueSuffix(t[p..q0], i - p);
        assert found[0] == Value(t[p..q0]) && found[0] in found;
      } else {
        CaptureStartsWithDigit(t, unit, i, q);
        var x :| x in xs && Value(t[i..q]) <= x;
        assert x in found;
      }
    }
  }

  /** A match starts with a digit. */
  lemma CaptureStartsWithDigit(t: string, unit: string, i: int, q: int)
    requires Capture(t, unit, i, q)
    ensures IsDigit(t[i])
  {
    assert t[i..q][0] == t[i];
  }

  /** `max(years) if years else 0`. */
  function MaxOrZero(xs: seq<nat>): (m: nat)
    ensures forall k :: 0 <= k < |xs| ==> xs[k] <= m
    ensures xs == [] ==> m == 0
    ensures xs != [] ==> m in xs
  {
    if xs == [] then
      0
    else
      var rest := MaxOrZero(xs[1..]);
      if xs[0] >= rest then xs[0] else rest
  }

  /** All numbers findall reports for the "years" pattern, then for the
      "yrs" pattern. */
  function YearsFound(t: string): seq<nat> {
    assert ValidUnit(Units[0]) && ValidUnit(Units[1]);
    FindAll(t, Units[0], 0) + FindAll(t, Units[1], 0)
  }

  /** extract_years: lower-case the text, collect the numbers of every match
      of both patterns, return the largest or 0. The result is at least
      every number mentioned, is itself mentioned when anything is, and is
      0 when nothing is. */
  function ExtractYears(text: string): (n: nat)
    ensures forall m: nat :: MentionsYears(Lower(text), m) ==> m <= n
    ensures HasYearsMention(Lower(text)) ==> MentionsYears(Lower(text), n)
    ensures !HasYearsMention(Lower(text)) ==> n == 0
  {
    var t := Lower(text);
    LargestMention(t);
    MaxOrZero(YearsFound(t))
  }

  /** The number n is mentioned as years of experience in the (lowered) text
      t: some match of either pattern has n as its digit group. */
  ghost predicate MentionsYears(t: string, n: nat) {
    exists u :: u in Units && MatchValue(t, u, 0, n)
  }

  ghost predicate HasYearsMention(t: string) {
    exists u, i, q :: u in Units && Capture(t, u, i, q)
  }

  /** Both unit words are ones the scanner handles. */
  lemma UnitsValid()
    ensures ValidUnit(Units[0]) && ValidUnit(Units[1])
  {
  }

  /** findall for one of the two patterns over the whole text: it reports
      only mentioned numbers, and covers every match of that pattern. */
  lemma UnitFoundSpec(t: string, u: string)
    requires u in Units && ValidUnit(u)
    ensures forall x :: x in FindAll(t, u, 0) ==> MentionsYears(t, x)
    ensures Covers(t, u, 0, FindAll(t, u, 0))
  {
    forall x | x in FindAll(t, u, 0)
      ensures MentionsYears(t, x)
    {
      assert MatchValue(t, u, 0, x);
    }
  }

  /** The two findall runs together report only mentioned numbers. */
  lemma YearsFoundSound(t: string)
    ensures forall x :: x in YearsFound(t) ==> MentionsYears(t, x)
  {
    var u0, u1 := Units[0], Units[1];
    UnitsValid();
    UnitFoundSpec(t, u0);
    UnitFoundSpec(t, u1);
    assert YearsFound(t) == FindAll(t, u0, 0) + FindAll(t, u1, 0);
  }

  /** The two findall runs together cover every mention with a number at
      least as large. */
  lemma YearsFoundCovers(t: string)
    ensures forall n: nat :: MentionsYears(t, n) ==> exists x :: x in YearsFound(t) && n <= x
  {
    var u0, u1 := Units[0], Units[1];
    UnitsValid();
    UnitFoundSpec(t, u0);
    UnitFoundSpec(t, u1);
    var a, b := FindAll(t, u0, 0), FindAll(t, u1, 0);
    assert YearsFound(t) == a + b;
    forall n: nat | MentionsYears(t, n)
      ensures exists x :: x in a + b && n <= x
    {
      var u :| u in Units && MatchValue(t, u, 0, n);
      var xs := if u == u0 then a else b;
      UnitCovers(t, u, xs, n);
      var x :| x in xs && n <= x;
      assert x in a + b;
    }
  }

  /** A mention through one pattern is bounded by a number its findall
      run reports. */
  lemma UnitCovers(t: string, u: string, xs: seq<nat>, n: nat)
    requires Covers(t, u, 0, xs) && MatchValue(t, u, 0, n)
    ensures exists x :: x in xs && n <= x
  {
    var i, q :| 0 <= i && Capture(t, u, i, q) && Value(t[i..q]) == n;
  }

  /** findall reports something exactly when either pattern matches. */
  lemma YearsFoundNonEmpty(t: string)
    ensures HasYearsMention(t) <==> YearsFound(t) != []
  {
    YearsFoundSound(t);
    YearsFoundCovers(t);
    if HasYearsMention(t) {
      var u, i, q :| u in Units && Capture(t, u, i, q);
      assert MatchValue(t, u, 0, Value(t[i..q]));
      assert MentionsYears(t, Value(t[i..q]));
    }
    if YearsFound(t) != [] {
      var x := YearsFound(t)[0];
      assert MentionsYears(t, x);
      var u :| u in Units && MatchValue(t, u, 0, x);
    }
  }

  /** The largest number the two findall runs report is the largest
      mentioned number, or 0 when nothing is mentioned. */
  lemma LargestMention(t: string)
    ensures forall m: nat :: MentionsYears(t, m) ==> m <= MaxOrZero(YearsFound(t))
    ensures HasYearsMention(t) ==> MentionsYears(t, MaxOrZero(YearsFound(t)))
    ensures !HasYearsMention(t) ==> MaxOrZero(YearsFound(t)) == 0
  {
    YearsFoundSound(t);
    YearsFoundCovers(t);
    YearsFoundNonEmpty(t);
    var found := YearsFound(t);
    forall m: nat | MentionsYears(t, m)
      ensures m <= MaxOrZero(found)
    {
      var x :| x in found && m <= x;
    }
  }

  /** A text without digits mentions no years. */
  lemma NoDigitsNoYears(text: string)
    requires forall k :: 0 <= k < |text| ==> !IsDigit(text[k])
    ensures ExtractYears(text) == 0
  {
    var t := Lower(text);
    UnitsValid();
    SkipNoDigits(t, Units[0], 0, |t|);
    SkipNoDigits(t, Units[1], 0, |t|);
  }

  /** extract_years ignores case. */
  lemma ExtractYearsIgnoresCase(text: string)
    ensures ExtractYears(Lower(text)) == ExtractYears(text)
  {
    LowerIdempotent(text);
  }

  // ---------------------------------------------------------------------
  // skill_match_score
  // ---------------------------------------------------------------------

  /** The skills of a text as skill_match_score sees them: normalised
      first, then looked up in the skill table. */
  function SkillsOf(text: string): (found: set<string>)
    ensures found <= CanonicalNames
    ensures |found| <= |SkillMap|
  {
    ExtractSkills(PreprocessText(text))
  }

  /** The score and the two skill lists; the lists are sets, since their
      order comes from Python's set iteration. */
  datatype SkillMatch = SkillMatch(score: real, matched: set<string>, missing: set<string>)

  /** 100 * part / whole, the unrounded percentage. */
  function Percent(part: nat, whole: nat): real
    requires whole > 0
  {
    100.0 * (part as real) / (whole as real)
  }

  lemma PercentBounds(part: nat, whole: nat)
    requires 0 < whole && part <= whole
    ensures 0.0 <= Percent(part, whole) <= 100.0
    ensures Percent(part, whole) == 100.0 <==> part == whole
  {
    var x, w := Percent(part, whole), whole as real;
    assert x * w == 100.0 * part as real;
    if part < whole {
      assert (100.0 - x) * w == 100.0 * (whole - part) as real;
      assert (100.0 - x) * w > 0.0;
    }
  }

  /** With at most |SkillMap| = 15 skills required, a partial match is at
      most 100 * 14 / 15 and a non-empty one at least 100 / 15, so rounding to
      hundredths can reach neither 100 nor 0. */
  lemma PartialPercentRounding(part: nat, whole: nat)
    requires 0 < part < whole <= |SkillMap|
    ensures 0.0 < RoundCents(Percent(part, whole)) < 100.0
  {
    assert |SkillMap| == 15;
    var x, w := Percent(part, whole), whole as real;
    assert x * w == 100.0 * part as real;
    var d := 100.0 - x;
    assert d * w >= 100.0;
    assert d * 15.0 >= d * w;
    assert x * w >= 100.0;
    assert x * 15.0 >= x * w;
  }

  /** skill_match_score on the two skill sets: the fail-safe empty result
      when no skill is required, otherwise the intersection, the difference
      and the rounded share of required skills present. */
  function ScoreSkills(resumeSkills: set<string>, jobSkills: set<string>): (r: SkillMatch)
    requires |jobSkills| <= |SkillMap|
    ensures jobSkills == {} ==> r == SkillMatch(0.0, {}, {})
    ensures r.matched !! r.missing
    ensures r.matched + r.missing == jobSkills
    ensures r.matched <= resumeSkills && r.missing !! resumeSkills
    ensures 0.0 <= r.score <= 100.0 && IsCents(r.score)
    ensures jobSkills != {} ==> (r.score == 100.0 <==> r.missing == {})
    ensures jobSkills != {} ==> (r.score == 0.0 <==> r.matched == {})
    ensures jobSkills != {} ==> r.score == RoundCents(Percent(|r.matched|, |jobSkills|))
  {
    if jobSkills == {} then
      assert IsCents(0.0);
      SkillMatch(0.0, {}, {})
    else
      var matched := resumeSkills * jobSkills;
      var missing := jobSkills - resumeSkills;
      SkillScoreRounding(matched, missing, jobSkills);
      SkillMatch(RoundCents(Percent(|matched|, |jobSkills|)), matched, missing)
  }

  /** skill_match_score: both texts normalised, their skills extracted and
      compared. Whatever the resume, a job description without recognised
      skills gives the fail-safe result. */
  function SkillMatchScore(resume: string, jd: string): (r: SkillMatch)
    ensures SkillsOf(jd) == {} ==> r == SkillMatch(0.0, {}, {})
    ensures r.matched !! r.missing && r.matched + r.missing == SkillsOf(jd)
    ensures r.matched <= SkillsOf(resume) && r.missing !! SkillsOf(resume)
    ensures 0.0 <= r.score <= 100.0 && IsCents(r.score)
    ensures SkillsOf(jd) != {} ==> (r.score == 100.0 <==> r.missing == {})
    ensures SkillsOf(jd) != {} ==> (r.score == 0.0 <==> r.matched == {})
    ensures SkillsOf(jd) != {} ==> r.score == RoundCents(Percent(|r.matched|, |SkillsOf(jd)|))
  {
    ScoreSkills(SkillsOf(resume), SkillsOf(jd))
  }

  /** The rounded score of a split of the job skills into matched and
      missing is 100 exactly when nothing is missing, and 0 exactly when
      nothing is matched. */
  lemma SkillScoreRounding(matched: set<string>, missing: set<string>, job: set<string>)
    requires job != {} && |job| <= |SkillMap|
    requires matched !! missing && matched + missing == job
    ensures RoundCents(Percent(|matched|, |job|)) == 100.0 <==> missing == {}
    ensures RoundCents(Percent(|matched|, |job|)) == 0.0 <==> matched == {}
    ensures 0.0 <= RoundCents(Percent(|matched|, |job|)) <= 100.0
  {
    assert |job| == |matched| + |missing|;
    PercentBounds(|matched|, |job|);
    if 0 < |matched| < |job| {
      PartialPercentRounding(|matched|, |job|);
    }
    if missing != {} {
      assert |missing| > 0;
    }
    if matched != {} {
      assert |matched| > 0;
    }
  }

  /** The skill score depends on the two texts only through their skill
      sets. */
  lemma SkillMatchBySkills(resume1: string, jd1: string, resume2: string, jd2: string)
    requires SkillsOf(resume1) == SkillsOf(resume2) && SkillsOf(jd1) == SkillsOf(jd2)
    ensures SkillMatchScore(resume1, jd1) == SkillMatchScore(resume2, jd2)
  {
  }

  // ---------------------------------------------------------------------
  // experience_match_score
  // ---------------------------------------------------------------------

  datatype ExperienceMatch = ExperienceMatch(score: real, resumeYears: nat, jdYears: nat)

  /** Full credit when nothing is required or the requirement is met,
      otherwise the rounded share of the required years. */
  function ExperienceCredit(resumeYears: nat, jdYears: nat): (score: real)
    ensures 0.0 <= score <= 100.0 && IsCents(score)
    ensures jdYears == 0 || resumeYears >= jdYears ==> score == 100.0
    ensures score < 100.0 ==> resumeYears < jdYears
  {
    if jdYears == 0 then
      assert IsCents(100.0);
      100.0
    else if resumeYears >= jdYears then
      assert IsCents(100.0);
      100.0
    else
      PercentBounds(resumeYears, jdYears);
      RoundCents(Percent(resumeYears, jdYears))
  }

  /** Partial credit is the share of the required years, before rounding
      strictly below 100. */
  lemma PartialCredit(resumeYears: nat, jdYears: nat)
    requires resumeYears < jdYears
    ensures ExperienceCredit(resumeYears, jdYears) == RoundCents(Percent(resumeYears, jdYears))
    ensures Percent(resumeYears, jdYears) < 100.0
  {
    PercentBounds(resumeYears, jdYears);
  }

  /** More years on the resume never lower the experience score. */
  lemma ExperienceCreditMonotone(ry1: nat, ry2: nat, jdYears: nat)
    requires ry1 <= ry2
    ensures ExperienceCredit(ry1, jdYears) <= ExperienceCredit(ry2, jdYears)
  {
    if 0 < jdYears && ry2 < jdYears {
      assert Percent(ry1, jdYears) <= Percent(ry2, jdYears);
      RoundCentsMonotone(Percent(ry1, jdYears), Percent(ry2, jdYears));
    }
  }

  /** Rounding can turn partial credit into full credit: 99999 of 100000
      years is 99.999 percent, reported as 100. */
  lemma PartialCreditCanRoundToFull()
    ensures ExperienceCredit(99999, 100000) == 100.0
  {
    var x := Percent(99999, 100000);
    assert x == 99.999;
    FloorOf(x * 100.0, 9999);
    PartialCredit(99999, 100000);
  }

  /** The floor of a real between n and n + 1. */
  lemma FloorOf(x: real, n: int)
    requires n as real <= x < n as real + 1.0
    ensures x.Floor == n
  {
  }

  function ExperienceMatchScore(resume: string, jd: string): (r: ExperienceMatch)
    ensures r.resumeYears == ExtractYears(resume) && r.jdYears == ExtractYears(jd)
    ensures 0.0 <= r.score <= 100.0 && IsCents(r.score)
    ensures r.jdYears == 0 || r.resumeYears >= r.jdYears ==> r.score == 100.0
    ensures r.resumeYears < r.jdYears ==> r.score == RoundCents(Percent(r.resumeYears, r.jdYears))
  {
    var resumeYears, jdYears := ExtractYears(resume), ExtractYears(jd);
    ExperienceMatch(ExperienceCredit(resumeYears, jdYears), resumeYears, jdYears)
  }

  // ---------------------------------------------------------------------
  // generate_explanation
  // ---------------------------------------------------------------------

  /** A rejection reason. The missing-skills reason carries the skill set;
      its text joins the skills with ", " in set iteration order. */
  datatype Reason = MissingRequiredSkills(skills: set<string>) | LowSkillMatch | InsufficientExperience

  /** The position a reason takes in the fixed rule order. */
  function Rank(r: Reason): nat {
    match r
    case MissingRequiredSkills(_) => 0
    case LowSkillMatch => 1
    case InsufficientExperience => 2
  }

  const MissingPrefix: string := "Missing required skills: "

  /** `", ".join(names)`. */
  function JoinComma(names: seq<string>): string {
    if names == [] then ""
    else if |names| == 1 then names[0]
    else names[0] + ", " + JoinComma(names[1..])
  }

  /** The message generate_explanation writes for a reason. For the
      missing-skills reason, `order` is an enumeration of its skills, each
      once, in whatever order Python's set iteration yields them; the model
      does not fix that order. The prefix tells the missing-skills message
      apart from the other two, and the listing follows it. */
  function ReasonText(r: Reason, order: seq<string>): (msg: string)
    requires r.MissingRequiredSkills? ==> multiset(order) == multiset(r.skills)
    ensures r.MissingRequiredSkills? <==> |MissingPrefix| <= |msg| && msg[..|MissingPrefix|] == MissingPrefix
    ensures r.MissingRequiredSkills? ==> msg[|MissingPrefix|..] == JoinComma(order)
    ensures r == LowSkillMatch <==> msg == "Low skill match"
    ensures r == InsufficientExperience <==> msg == "Insufficient experience"
  {
    match r
    case MissingRequiredSkills(_) =>
      var msg := MissingPrefix + JoinComma(order);
      assert msg[..|MissingPrefix|] == MissingPrefix;
      assert msg[0] == 'M';
      msg
    case LowSkillMatch => "Low skill match"
    case InsufficientExperience => "Insufficient experience"
  }

  /** Different kinds of reason never share a message, whatever the order
      of the listed skills. */
  lemma ReasonTextDistinct(r1: Reason, r2: Reason, o1: seq<string>, o2: seq<string>)
    requires r1.MissingRequiredSkills? ==> multiset(o1) == multiset(r1.skills)
    requires r2.MissingRequiredSkills? ==> multiset(o2) == multiset(r2.skills)
    requires Rank(r1) != Rank(r2)
    ensures ReasonText(r1, o1) != ReasonText(r2, o2)
  {
  }

  const StrongJustification: seq<string> := ["Strong skill alignment", "Good experience match"]
  const ModerateJustification: seq<string> := ["Moderate profile match"]
  const RejectJustification: seq<string> := ["Profile does not meet requirements"]

  datatype Explanation = Explanation(reasons: seq<Reason>, justification: seq<string>)

  /** The rejection reasons, one rule after the other. */
  function Reasons(skillScore: real, expScore: real, missing: set<string>): (rs: seq<Reason>)
    ensures |rs| <= 3
    ensures forall i, j :: 0 <= i < j < |rs| ==> Rank(rs[i]) < Rank(rs[j])
    ensures MissingRequiredSkills(missing) in rs <==> missing != {}
    ensures forall r :: r in rs && r.MissingRequiredSkills? ==> r.skills == missing
    ensures LowSkillMatch in rs <==> skillScore < 60.0
    ensures InsufficientExperience in rs <==> expScore < 60.0
  {
    var r1: seq<Reason> := if missing != {} then [MissingRequiredSkills(missing)] else [];
    var r2: seq<Reason> := if skillScore < 60.0 then [LowSkillMatch] else [];
    var r3: seq<Reason> := if expScore < 60.0 then [InsufficientExperience] else [];
    assert forall r :: r in r1 ==> Rank(r) == 0;
    assert forall r :: r in r2 ==> Rank(r) == 1;
    assert forall r :: r in r3 ==> Rank(r) == 2;
    r1 + r2 + r3
  }

  /** The hiring justification: one of three bands by the final score. */
  function Justification(finalScore: real): (j: seq<string>)
    ensures j == StrongJustification <==> finalScore >= 80.0
    ensures j == ModerateJustification <==> 60.0 <= finalScore < 80.0
    ensures j == RejectJustification <==> finalScore < 60.0
  {
    if finalScore >= 80.0 then StrongJustification
    else if finalScore >= 60.0 then ModerateJustification
    else RejectJustification
  }

  /** generate_explanation: the reasons from the two scores and the missing
      skills, in a fixed order and each given exactly under its rule; the
      justification from the final score, each band exactly on its range. */
  function GenerateExplanation(skillScore: real, expScore: real, missing: set<string>, finalScore: real): (e: Explanation)
    ensures forall i, j :: 0 <= i < j < |e.reasons| ==> Rank(e.reasons[i]) < Rank(e.reasons[j])
    ensures MissingRequiredSkills(missing) in e.reasons <==> missing != {}
    ensures forall r :: r in e.reasons && r.MissingRequiredSkills? ==> r.skills == missing
    ensures LowSkillMatch in e.reasons <==> skillScore < 60.0
    ensures InsufficientExperience in e.reasons <==> expScore < 60.0
    ensures e.justification == StrongJustification <==> finalScore >= 80.0
    ensures e.justification == ModerateJustification <==> 60.0 <= finalScore < 80.0
    ensures e.justification == RejectJustification <==> finalScore < 60.0
  {
    Explanation(Reasons(skillScore, expScore, missing), Justification(finalScore))
  }

  /** The three justifications are distinct, so exactly one band applies to
      every final score. */
  lemma BandsExclusive(skillScore: real, expScore: real, missing: set<string>, finalScore: real)
    ensures var j := GenerateExplanation(skillScore, expScore, missing, finalScore).justification;
      || (j == StrongJustification && j != ModerateJustification && j != RejectJustification)
      || (j != StrongJustification && j == ModerateJustification && j != RejectJustification)
      || (j != StrongJustification && j != ModerateJustification && j == RejectJustification)
  {
    assert StrongJustification != ModerateJustification;
    assert ModerateJustification[0] != RejectJustification[0];
  }

  /** No reason is given exactly when nothing is missing and both scores
      reach 60. */
  lemma NoReasonsIff(skillScore: real, expScore: real, missing: set<string>, finalScore: real)
    ensures GenerateExplanation(skillScore, expScore, missing, finalScore).reasons == []
      <==> missing == {} && skillScore >= 60.0 && expScore >= 60.0
  {
    var e := GenerateExplanation(skillScore, expScore, missing, finalScore);
    if e.reasons != [] {
      assert e.reasons[0] in e.reasons;
    }
  }

  // ---------------------------------------------------------------------
  // compute_match_percentage
  // ---------------------------------------------------------------------

  datatype MatchResult = MatchResult(
    finalScore: real,
    skillScore: real,
    experienceScore: real,
    matchedSkills: set<string>,
    missingSkills: set<string>,
    resumeYears: nat,
    jdYears: nat,
    rejectionReasons: seq<Reason>,
    hiringJustification: seq<string>)

  /** The 0.7 / 0.3 weighting of the two scores, before rounding. */
  function Weighted(skillScore: real, expScore: real): real {
    skillScore * 0.7 + expScore * 0.3
  }

  lemma WeightedBounds(skillScore: real, expScore: real)
    requires 0.0 <= skillScore <= 100.0 && 0.0 <= expScore <= 100.0
    ensures 0.0 <= Weighted(skillScore, expScore) <= 100.0
    ensures Weighted(skillScore, expScore) == 100.0 <==> skillScore == 100.0 && expScore == 100.0
  {
  }

  /** The record compute_match_percentage assembles from the two component
      results: the weighted score rounded, the components unchanged, and the
      explanation computed from the weighted score before rounding. */
  function CombineScores(s: SkillMatch, x: ExperienceMatch): (r: MatchResult)
    requires 0.0 <= s.score <= 100.0 && 0.0 <= x.score <= 100.0
    ensures && r.skillScore == s.score && r.matchedSkills == s.matched && r.missingSkills == s.missing
            && r.experienceScore == x.score && r.resumeYears == x.resumeYears && r.jdYears == x.jdYears
    ensures 0.0 <= r.finalScore <= 100.0 && IsCents(r.finalScore)
    ensures var w := Weighted(s.score, x.score);
      r.finalScore - w <= 0.005 && w - r.finalScore <= 0.005
    ensures r.finalScore == RoundCents(Weighted(s.score, x.score))
    ensures var e := GenerateExplanation(s.score, x.score, s.missing, Weighted(s.score, x.score));
      r.rejectionReasons == e.reasons && r.hiringJustification == e.justification
  {
    var finalScore := Weighted(s.score, x.score);
    WeightedBounds(s.score, x.score);
    var e := GenerateExplanation(s.score, x.score, s.missing, finalScore);
    MatchResult(RoundCents(finalScore), s.score, x.score, s.matched, s.missing,
                x.resumeYears, x.jdYears, e.reasons, e.justification)
  }

  /** A better skill score or a better experience score never lowers the
      reported final score. */
  lemma CombineScoresMonotone(s1: SkillMatch, x1: ExperienceMatch, s2: SkillMatch, x2: ExperienceMatch)
    requires 0.0 <= s1.score <= s2.score <= 100.0 && 0.0 <= x1.score <= x2.score <= 100.0
    ensures CombineScores(s1, x1).finalScore <= CombineScores(s2, x2).finalScore
  {
    RoundCentsMonotone(Weighted(s1.score, x1.score), Weighted(s2.score, x2.score));
  }

  /** Full marks on both components give a final score of 100, and a
      final score of 100 needs full skill marks: a skill score of at most
      99.99 keeps the weighted score at most 99.993 before rounding. */
  lemma CombineScoresFull(s: SkillMatch, x: ExperienceMatch)
    requires 0.0 <= s.score <= 100.0 && 0.0 <= x.score <= 100.0 && IsCents(s.score)
    ensures s.score == 100.0 && x.score == 100.0 ==> CombineScores(s, x).finalScore == 100.0
    ensures CombineScores(s, x).finalScore == 100.0 ==> s.score == 100.0
  {
    var w := Weighted(s.score, x.score);
    if s.score < 100.0 {
      assert s.score * 100.0 <= 9999.0 by {
        assert (s.score * 100.0).Floor < 10000;
      }
      assert w <= 99.993;
      RoundCentsMonotone(w, 99.993);
      FloorOf(99.993 * 100.0, 9999);
    } else if x.score == 100.0 {
      assert w == 100.0 && IsCents(100.0);
    }
  }

  /** Full experience marks are not needed for a final score of 100: full
      skill marks with the experience credit of 9999 years against 10000,
      99.99, weigh 99.997, which rounds up to 100. */
  lemma NearlyFullExperienceRoundsToFull(s: SkillMatch, x: ExperienceMatch)
    requires s.score == 100.0 && x.score == ExperienceCredit(9999, 10000)
    ensures x.score == 99.99
    ensures CombineScores(s, x).finalScore == 100.0
  {
    PartialCredit(9999, 10000);
    assert Percent(9999, 10000) == 99.99;
    assert IsCents(99.99);
    assert Weighted(s.score, x.score) == 99.997;
    FloorOf(99.997 * 100.0, 9999);
  }

  /** compute_match_percentage: score the skills and the experience of the
      two texts and combine them. */
  function ComputeMatchPercentage(resume: string, jd: string): (r: MatchResult)
    ensures var s, x := SkillMatchScore(resume, jd), ExperienceMatchScore(resume, jd);
      && r.skillScore == s.score && r.matchedSkills == s.matched && r.missingSkills == s.missing
      && r.experienceScore == x.score && r.resumeYears == x.resumeYears && r.jdYears == x.jdYears
    ensures 0.0 <= r.finalScore <= 100.0 && IsCents(r.finalScore)
    ensures var w := Weighted(r.skillScore, r.experienceScore);
      r.finalScore - w <= 0.005 && w - r.finalScore <= 0.005
    ensures r.finalScore == RoundCents(Weighted(r.skillScore, r.experienceScore))
    ensures var e := GenerateExplanation(r.skillScore, r.experienceScore, r.missingSkills,
                                          Weighted(r.skillScore, r.experienceScore));
      r.rejectionReasons == e.reasons && r.hiringJustification == e.justification
  {
    CombineScores(SkillMatchScore(resume, jd), ExperienceMatchScore(resume, jd))
  }
}

=== FILE: skill_examples.dfy ===
/**
 Concrete consequences of the skill table: matching is raw substring
 containment, so short variants fire inside longer words unless the
 variant itself carries its boundary characters. The texts are passed
 as parameters fixed by a precondition, so that the verifier evaluates
 the table one entry at a time instead of all at once.
 */
module SkillExamples {
  import opened Text
  import opened ResumeParser

  /** When no entry of the table has a variant in the padded text,
      nothing is found. */
  lemma FoundNone(table: seq<SkillEntry>, text: string)
    requires forall k :: 0 <= k < |table| ==> !AnyVariantFrom(table[k].1, Padded(text), 0)
    ensures ExtractSkillsWith(table, text) == {}
  {
    forall c | c in ExtractSkillsWith(table, text)
      ensures false
    {
      var e :| e in table && e.0 == c && Reveals(e, Padded(text));
      var k :| 0 <= k < |table| && table[k] == e;
      AnyVariantFromSpec(table[k].1, Padded(text), 0);
    }
  }

  /** When exactly the entry at position h has a variant in the padded
      text, its name is the only skill found. */
  lemma FoundOnly(table: seq<SkillEntry>, text: string, h: int)
    requires 0 <= h < |table|
    requires forall k :: 0 <= k < |table| ==> (AnyVariantFrom(table[k].1, Padded(text), 0) <==> k == h)
    ensures ExtractSkillsWith(table, text) == {table[h].0}
  {
    var found := ExtractSkillsWith(table, text);
    forall c | c in found
      ensures c == table[h].0
    {
      var e :| e in table && e.0 == c && Reveals(e, Padded(text));
      var k :| 0 <= k < |table| && table[k] == e;
      AnyVariantFromSpec(table[k].1, Padded(text), 0);
    }
    AnyVariantFromSpec(table[h].1, Padded(text), 0);
    assert table[h] in table;
  }

  /** The empty text yields no skill: the padded text "  " holds no variant. */
  lemma EmptyTextHasNoSkills(text: string)
    requires text == ""
    ensures ExtractSkills(text) == {}
  {
    PadEmptyTextHasNoSkills(text);
    ScanEmptyTextHasNoSkills(text);
  }

  lemma PadEmptyTextHasNoSkills(text: string)
    requires text == ""
    ensures Padded(text) == "  "
  {
  }

  lemma ScanEmptyTextHasNoSkills(text: string)
    requires Padded(text) == "  "
    ensures ExtractSkillsWith(SkillMap, text) == {}
  {
    forall k | 0 <= k < |SkillMap|
      ensures !AnyVariantFrom(SkillMap[k].1, Padded(text), 0)
    {
      RevealsEmptyTextHasNoSkills(k);
    }
    FoundNone(SkillMap, text);
  }

  lemma RevealsEmptyTextHasNoSkills(k: int)
    requires 0 <= k < |SkillMap|
    ensures !AnyVariantFrom(SkillMap[k].1, "  ", 0)
  {
    if k == 0 {
      assert !AnyVariantFrom(SkillMap[0].1, "  ", 0);
    } else if k == 1 {
      assert !AnyVariantFrom(SkillMap[1].1, "  ", 0);
    } else if k == 2 {
      assert !AnyVariantFrom(SkillMap[2].1, "  ", 0);
    } else if k == 3 {
      assert !AnyVariantFrom(SkillMap[3].1, "  ", 0);
    } else if k == 4 {
      assert !AnyVariantFrom(SkillMap[4].1, "  ", 0);
    } else if k == 5 {
      assert !AnyVariantFrom(SkillMap[5].1, "  ", 0);
    } else if k == 6 {
      assert !AnyVariantFrom(SkillMap[6].1, "  ", 0);
    } else if k == 7 {
      assert !AnyVariantFrom(SkillMap[7].1, "  ", 0);
    } else if k == 8 {
      assert !AnyVariantFrom(SkillMap[8].1, "  ", 0);
    } else if k == 9 {
      assert !AnyVariantFrom(SkillMap[9].1, "  ", 0);
    } else if k == 10 {
      assert !AnyVariantFrom(SkillMap[10].1, "  ", 0);
    } else if k == 11 {
      assert !AnyVariantFrom(SkillMap[11].1, "  ", 0);
    } else if k == 12 {
      assert !AnyVariantFrom(SkillMap[12].1, "  ", 0);
    } else if k == 13 {
      assert !AnyVariantFrom(SkillMap[13].1, "  ", 0);
    } else {
      assert !AnyVariantFrom(SkillMap[14].1, "  ", 0);
    }
  }

  /** No word-boundary check: "html" contains the variant "ml" of
      machine learning, and nothing else. */
  lemma HtmlYieldsMachineLearning(text: string)
    requires text == "html"
    ensures ExtractSkills(text) == {"machine learning"}
  {
    PadHtmlYieldsMachineLearning(text);
    ScanHtmlYieldsMachineLearning(text);
    SkillNameHtmlYieldsMachineLearning();
  }

  lemma PadHtmlYieldsMachineLearning(text: string)
    requires text == "html"
    ensures Padded(text) == " html "
  {
    LowerOfLowercase(text);
  }

  lemma SkillNameHtmlYieldsMachineLearning()
    ensures SkillMap[3].0 == "machine learning"
  {
  }

  lemma ScanHtmlYieldsMachineLearning(text: string)
    requires Padded(text) == " html "
    ensures ExtractSkillsWith(SkillMap, text) == {SkillMap[3].0}
  {
    forall k | 0 <= k < |SkillMap|
      ensures AnyVariantFrom(SkillMap[k].1, Padded(text), 0) <==> k == 3
    {
      RevealsHtmlYieldsMachineLearning(k);
    }
    FoundOnly(SkillMap, text, 3);
  }

  lemma RevealsHtmlYieldsMachineLearning(k: int)
    requires 0 <= k < |SkillMap|
    ensures AnyVariantFrom(SkillMap[k].1, " html ", 0) <==> k == 3
  {
    if k == 0 {
      assert !AnyVariantFrom(SkillMap[0].1, " html ", 0);
    } else if k == 1 {
      assert !AnyVariantFrom(SkillMap[1].1, " html ", 0);
    } else if k == 2 {
      assert !AnyVariantFrom(SkillMap[2].1, " html ", 0);
    } else if k == 3 {
      assert AnyVariantFrom(SkillMap[3].1, " html ", 0);
    } else if k == 4 {
      assert !AnyVariantFrom(SkillMap[4].1, " html ", 0);
    } else if k == 5 {
      assert !AnyVariantFrom(SkillMap[5].1, " html ", 0);
    } else if k == 6 {
      assert !AnyVariantFrom(SkillMap[6].1, " html ", 0);
    } else if k == 7 {
      assert !AnyVariantFrom(SkillMap[7].1, " html ", 0);
    } else if k == 8 {
      assert !AnyVariantFrom(SkillMap[8].1, " html ", 0);
    } else if k == 9 {
      assert !AnyVariantFrom(SkillMap[9].1, " html ", 0);
    } else if k == 10 {
      assert !AnyVariantFrom(SkillMap[10].1, " html ", 0);
    } else if k == 11 {
      assert !AnyVariantFrom(SkillMap[11].1, " html ", 0);
    } else if k == 12 {
      assert !AnyVariantFrom(SkillMap[12].1, " html ", 0);
    } else if k == 13 {
      assert !AnyVariantFrom(SkillMap[13].1, " html ", 0);
    } else {
      assert !AnyVariantFrom(SkillMap[14].1, " html ", 0);
    }
  }

  /** The padding lets the bare text "r" reveal skill r through variant " r ". */
  lemma BareRYieldsR(text: string)
    requires text == "r"
    ensures ExtractSkills(text) == {"r"}
  {
    PadBareRYieldsR(text);
    ScanBareRYieldsR(text);
    SkillNameBareRYieldsR();
  }

  lemma PadBareRYieldsR(text: string)
    requires text == "r"
    ensures Padded(text) == " r "
  {
    LowerOfLowercase(text);
  }

  lemma SkillNameBareRYieldsR()
    ensures SkillMap[2].0 == "r"
  {
  }

  lemma ScanBareRYieldsR(text: string)
    requires Padded(text) == " r "
    ensures ExtractSkillsWith(SkillMap, text) == {SkillMap[2].0}
  {
    forall k | 0 <= k < |SkillMap|
      ensures AnyVariantFrom(SkillMap[k].1, Padded(text), 0) <==> k == 2
    {
      RevealsBareRYieldsR(k);
    }
    FoundOnly(SkillMap, text, 2);
  }

  lemma RevealsBareRYieldsR(k: int)
    requires 0 <= k < |SkillMap|
    ensures AnyVariantFrom(SkillMap[k].1, " r ", 0) <==> k == 2
  {
    if k == 0 {
      assert !AnyVariantFrom(SkillMap[0].1, " r ", 0);
    } else if k == 1 {
      assert !AnyVariantFrom(SkillMap[1].1, " r ", 0);
    } else if k == 2 {
      assert AnyVariantFrom(SkillMap[2].1, " r ", 0);
    } else if k == 3 {
      assert !AnyVariantFrom(SkillMap[3].1, " r ", 0);
    } else if k == 4 {
      assert !AnyVariantFrom(SkillMap[4].1, " r ", 0);
    } else if k == 5 {
      assert !AnyVariantFrom(SkillMap[5].1, " r ", 0);
    } else if k == 6 {
      assert !AnyVariantFrom(SkillMap[6].1, " r ", 0);
    } else if k == 7 {
      assert !AnyVariantFrom(SkillMap[7].1, " r ", 0);
    } else if k == 8 {
      assert !AnyVariantFrom(SkillMap[8].1, " r ", 0);
    } else if k == 9 {
      assert !AnyVariantFrom(SkillMap[9].1, " r ", 0);
    } else if k == 10 {
      assert !AnyVariantFrom(SkillMap[10].1, " r ", 0);
    } else if k == 11 {
      assert !AnyVariantFrom(SkillMap[11].1, " r ", 0);
    } else if k == 12 {
      assert !AnyVariantFrom(SkillMap[12].1, " r ", 0);
    } else if k == 13 {
      assert !AnyVariantFrom(SkillMap[13].1, " r ", 0);
    } else {
      assert !AnyVariantFrom(SkillMap[14].1, " r ", 0);
    }
  }

  /** The boundary characters in the variants of r keep it out of "react". */
  lemma ReactYieldsOnlyReact(text: string)
    requires text == "react"
    ensures ExtractSkills(text) == {"react"}
  {
    PadReactYieldsOnlyReact(text);
    ScanReactYieldsOnlyReact(text);
    SkillNameReactYieldsOnlyReact();
  }

  lemma PadReactYieldsOnlyReact(text: string)
    requires text == "react"
    ensures Padded(text) == " react "
  {
    LowerOfLowercase(text);
  }

  lemma SkillNameReactYieldsOnlyReact()
    ensures SkillMap[13].0 == "react"
  {
  }

  lemma ScanReactYieldsOnlyReact(text: string)
    requires Padded(text) == " react "
    ensures ExtractSkillsWith(SkillMap, text) == {SkillMap[13].0}
  {
    forall k | 0 <= k < |SkillMap|
      ensures AnyVariantFrom(SkillMap[k].1, Padded(text), 0) <==> k == 13
    {
      RevealsReactYieldsOnlyReact(k);
    }
    FoundOnly(SkillMap, text, 13);
  }

  lemma RevealsReactYieldsOnlyReact(k: int)
    requires 0 <= k < |SkillMap|
    ensures AnyVariantFrom(SkillMap[k].1, " react ", 0) <==> k == 13
  {
    if k == 0 {
      assert !AnyVariantFrom(SkillMap[0].1, " react ", 0);
    } else if k == 1 {
      assert !AnyVariantFrom(SkillMap[1].1, " react ", 0);
    } else if k == 2 {
      assert !AnyVariantFrom(SkillMap[2].1, " react ", 0);
    } else if k == 3 {
      assert !AnyVariantFrom(SkillMap[3].1, " react ", 0);
    } else if k == 4 {
      assert !AnyVariantFrom(SkillMap[4].1, " react ", 0);
    } else if k == 5 {
      assert !AnyVariantFrom(SkillMap[5].1, " react ", 0);
    } else if k == 6 {
      assert !AnyVariantFrom(SkillMap[6].1, " react ", 0);
    } else if k == 7 {
      assert !AnyVariantFrom(SkillMap[7].1, " react ", 0);
    } else if k == 8 {
      assert !AnyVariantFrom(SkillMap[8].1, " react ", 0);
    } else if k == 9 {
      assert !AnyVariantFrom(SkillMap[9].1, " react ", 0);
    } else if k == 10 {
      assert !AnyVariantFrom(SkillMap[10].1, " react ", 0);
    } else if k == 11 {
      assert !AnyVariantFrom(SkillMap[11].1, " react ", 0);
    } else if k == 12 {
      assert !AnyVariantFrom(SkillMap[12].1, " react ", 0);
    } else if k == 13 {
      assert AnyVariantFrom(SkillMap[13].1, " react ", 0);
    } else {
      assert !AnyVariantFrom(SkillMap[14].1, " react ", 0);
    }
  }

  /** Upper case changes nothing: "REACT" yields react as "react" does. */
  lemma UpperCaseReact(text: string)
    requires text == "REACT"
    ensures ExtractSkills(text) == {"react"}
  {
    assert Lower(text) == "react";
    ExtractSkillsIgnoresCase(text);
    ReactYieldsOnlyReact(Lower(text));
  }
}

=== FILE: text.dfy ===
/**
 Character classes and string helpers shared by the text normaliser, the
 skill extractor and the experience extractor. Only the ASCII range is
 modelled: upper-case letters are 'A'..'Z', digits are '0'..'9', and the
 whitespace class is the set of ASCII characters that Python's `\s` accepts
 in a `str` pattern.
 */
module Text {

  predicate IsUpper(c: char) {
    'A' <= c <= 'Z'
  }

  predicate IsDigit(c: char) {
    '0' <= c <= '9'
  }

  /** Space, \t \n \v \f \r (9..13) and the four separators 28..31. */
  predicate IsSpace(c: char) {
    c == ' ' || 9 <= c as int <= 13 || 28 <= c as int <= 31
  }

  /** `str.lower()` on one character. */
  function ToLower(c: char): (d: char)
    ensures !IsUpper(d)
    ensures IsSpace(d) <==> IsSpace(c)
    ensures IsDigit(d) <==> IsDigit(c)
  {
    if IsUpper(c) then (c as int + 32) as char else c
  }

  /** `str.lower()` on a string: every character lowered, length kept. */
  function Lower(s: string): (r: string)
    ensures |r| == |s|
    ensures forall i :: 0 <= i < |s| ==> r[i] == ToLower(s[i])
  {
    seq(|s|, i requires 0 <= i < |s| => ToLower(s[i]))
  }

  predicate NoUpper(s: string) {
    forall i :: 0 <= i < |s| ==> !IsUpper(s[i])
  }

  /** Lowering changes nothing in a string without upper-case letters. */
  lemma LowerOfLowercase(s: string)
    requires NoUpper(s)
    ensures Lower(s) == s
  {
  }

  lemma LowerIdempotent(s: string)
    ensures NoUpper(Lower(s))
    ensures Lower(Lower(s)) == Lower(s)
  {
    LowerOfLowercase(Lower(s));
  }

  lemma LowerConcat(a: string, b: string)
    ensures Lower(a + b) == Lower(a) + Lower(b)
  {
  }

  /** v occurs in t starting at index i. */
  predicate OccursAt(v: string, t: string, i: int) {
    0 <= i <= |t| - |v| && t[i..i + |v|] == v
  }

  /** `v in t` for strings: v occurs as a contiguous block of t. */
  ghost predicate Occurs(v: string, t: string) {
    exists i :: OccursAt(v, t, i)
  }

  /** The block of t at offset i agrees with v from position j on. */
  function MatchesFrom(t: string, v: string, i: nat, j: nat): bool
    requires i + |v| <= |t| && j <= |v|
    decreases |v| - j
  {
    j == |v| || (t[i + j] == v[j] && MatchesFrom(t, v, i, j + 1))
  }

  lemma {:induction false} MatchesFromSpec(t: string, v: string, i: nat, j: nat)
    requires i + |v| <= |t| && j <= |v|
    ensures MatchesFrom(t, v, i, j) <==> t[i + j..i + |v|] == v[j..]
    decreases |v| - j
  {
    if j < |v| {
      MatchesFromSpec(t, v, i, j + 1);
      assert t[i + j..i + |v|] == [t[i + j]] + t[i + j + 1..i + |v|];
      assert v[j..] == [v[j]] + v[j + 1..];
    }
  }

  /** Whether v occurs in t at some index from i on: the loop over start
      positions of a substring search. */
  function ContainsFrom(t: string, v: string, i: nat): bool
    decreases |t| - i
  {
    i + |v| <= |t| && (MatchesFrom(t, v, i, 0) || ContainsFrom(t, v, i + 1))
  }

  lemma {:induction false} ContainsFromSpec(t: string, v: string, i: nat)
    ensures ContainsFrom(t, v, i) <==> exists k :: i <= k && OccursAt(v, t, k)
    decreases |t| - i
  {
    if i + |v| <= |t| {
      MatchesFromSpec(t, v, i, 0);
      ContainsFromSpec(t, v, i + 1);
      assert MatchesFrom(t, v, i, 0) <==> OccursAt(v, t, i);
      if exists k :: i <= k && OccursAt(v, t, k) {
        var k :| i <= k && OccursAt(v, t, k);
        assert k == i || i + 1 <= k;
      }
    }
  }
}

=== FILE: years_examples.dfy ===
/**
 Concrete consequences of the years pattern, evaluated one attempt of the
 scanner at a time.
 */
module YearsExamples {
  import opened Text
  import opened Similarity

  /** In "0 years" the "years" pattern matches once, with number 0. */
  lemma ZeroYearsUnitYears(t: string)
    requires t == "0 years"
    ensures ValidUnit(Units[0]) && FindAll(t, Units[0], 0) == [0]
  {
    UnitsValid();
    var u := Units[0];
    assert u == "years";
    assert DigitsEnd(t, 0) == 1;
    assert SpacesEnd(t, 1) == 2;
    assert t[2..7] == u;
    assert TryMatch(t, u, 0) == Some((1, 7));
    assert t[0..1] == "0";
    assert Value(t[0..1]) == 0;
  }

  /** In "0 years" the "yrs" pattern never matches. */
  lemma ZeroYearsUnitYrs(t: string)
    requires t == "0 years"
    ensures ValidUnit(Units[1]) && FindAll(t, Units[1], 0) == []
  {
    UnitsValid();
    var u := Units[1];
    assert u == "yrs";
    assert DigitsEnd(t, 0) == 1;
    assert SpacesEnd(t, 1) == 2;
    assert t[2..5][1] != u[1];
    assert TryMatch(t, u, 0).None?;
    SkipNoDigits(t, u, 1, |t|);
    assert FindAll(t, u, |t|) == [];
  }

  /** "0 years" is a mention, and its number is 0: the result 0 does not
      mean that nothing was mentioned. */
  lemma ZeroYearsIsAMention(text: string)
    requires text == "0 years"
    ensures HasYearsMention(Lower(text)) && ExtractYears(text) == 0
  {
    var t := Lower(text);
    assert t == "0 years";
    ZeroYearsUnitYears(t);
    ZeroYearsUnitYrs(t);
    assert YearsFound(t) == [0];
    YearsFoundNonEmpty(t);
  }

  /** "5+ YRS": upper case, a '+' and the abbreviation still give 5. */
  lemma PlusAbbreviationUpperCase(text: string)
    requires text == "5+ YRS"
    ensures ExtractYears(text) == 5
  {
    var t := Lower(text);
    assert t == "5+ yrs";
    UnitsValid();
    PlusAbbreviationYears(t);
    PlusAbbreviationYrs(t);
    assert YearsFound(t) == [5];
  }

  lemma PlusAbbreviationYears(t: string)
    requires t == "5+ yrs"
    ensures ValidUnit(Units[0]) && FindAll(t, Units[0], 0) == []
  {
    UnitsValid();
    var u := Units[0];
    assert u == "years";
    assert DigitsEnd(t, 0) == 1;
    assert SpacesEnd(t, 2) == 3;
    assert TryMatch(t, u, 0).None?;
    SkipNoDigits(t, u, 1, |t|);
    assert FindAll(t, u, |t|) == [];
  }

  lemma PlusAbbreviationYrs(t: string)
    requires t == "5+ yrs"
    ensures ValidUnit(Units[1]) && FindAll(t, Units[1], 0) == [5]
  {
    UnitsValid();
    var u := Units[1];
    assert u == "yrs";
    assert DigitsEnd(t, 0) == 1;
    assert SpacesEnd(t, 2) == 3;
    assert t[3..6] == u;
    assert TryMatch(t, u, 0) == Some((1, 6));
    assert t[0..1] == "5";
    assert Value(t[0..1]) == 5;
    assert FindAll(t, u, 6) == [];
  }
}
